=== FILE: README.md ===
# Swimlanes MCP tools, modelled in Dafny

The Swimlanes MCP server exposes three tools that turn a Swimlanes.io diagram
text into something shareable:

- `getSwimlaneImageLink` asks the Swimlanes.io service for a link to the
  rendered diagram;
- `generateSwimlaneImage` downloads the rendered PNG, saves it, and asks for
  the link;
- `createSwimlaneDiagram` asks for the link, optionally downloads the image,
  and writes a Markdown documentation page that embeds both.

Each tool first validates its arguments with a zod schema. It then puts a
`title:` line in front of the diagram text, makes its requests and writes its
files, and answers with a `{ success, ... }` JSON envelope.

The model is functional. Each module below lives in a file of the same name,
in lower case.

- **Wrappers**: `Option` and `Result`.
- **Strings**: prefixes and suffixes, JavaScript truthiness of optional strings, ASCII `toLowerCase`, `split`/`join` and decimal numerals.
- **Json**: flat JSON values and objects.
- **Schemas**: the three zod schemas. Each is a parse function from an optional argument object to typed, defaulted parameters, or to the zod issues found, in field order.
- **Paths**: node's POSIX `path.join` (with its normalisation) and `path.dirname`.
- **Naming**: title sanitising and the default Markdown and image locations.
- **Remote**: the two requests to the service. Replies are abstract values: a transport error, or a response with status, status text and `Location` header or body bytes. This module also covers how replies are classified and the error messages produced.
- **Markdown**: the documentation page template.
- **Effects**: traces of steps, envelopes, and the rules relating them.
- **Handlers**: the three tools and `downloadImage` as pipelines. Each outcome of the outside world is a parameter: every reply, every `mkdir` and every `writeFile`. A tool returns its envelope and the trace of the steps it took, so short-circuiting, write order and "no writes" can be stated as properties of the trace.

Behaviour of the code worth noting:

- A link reply whose status is not 201 fails with `Swimlanes.io API error: <status> <statusText>`, not with the missing-location message. Only a 201 without a usable `Location` gives `No location header returned from Swimlanes.io API`. A 201 with an empty `Location` counts as missing, because the check is a falsy test.
- The `diagram` fallback of the default image name applies to the raw title (`title || 'diagram'`), not to the sanitised result. A title with no ASCII letter or digit gives the stem `""` and the file `docs/diagrams/images/.png`.
- A missing `text` or `title` is reported with zod's `Required`. The custom messages `Swimlanes syntax content is required` and `Title is required` appear only for the empty string.

## Model

| member | source | states |
|---|---|---|
| Handlers.PrepareText | src/tools/swimlane-tools.ts:23-26 | The text is changed exactly when the title is non-empty and the text does not start with `title:`; then the result is `title: <title>\n` followed by the text. In every case the result ends with the text, and a non-empty title means it starts with `title:`. The same code sits at lines 95-98 and 143-146. |
| Handlers.PrepareTextIdempotent | src/tools/swimlane-tools.ts:24-26 | Putting the title line in twice gives the same text as putting it in once. |
| Naming.Sanitize | src/tools/swimlane-tools.ts:288 | The stem holds only `[a-z0-9-]`, never two `-` in a row, and never starts or ends with `-`. Its letters and digits are exactly those of the lower-cased title, in order. |
| Naming.SanitizeWords | src/tools/swimlane-tools.ts:288 | The stem is the words of the lower-cased title joined by single `-`. A word is a maximal run of ASCII letters and digits, so a `-` stands exactly where a run of other characters separated two words, and nowhere at either end. |
| Naming.SanitizeIdempotent | src/tools/swimlane-tools.ts:288 | Sanitising a stem again leaves it unchanged. |
| Naming.SanitizeSlug | src/tools/swimlane-tools.ts:288 | Every valid stem is its own sanitised form, so the stems are exactly the fixed points. |
| Naming.SanitizeEmpty | src/tools/swimlane-tools.ts:302 | The stem is empty exactly when the lower-cased title has no ASCII letter or digit. |
| Naming.SanitizeExample | src/tools/swimlane-tools.ts:288 | `User Login!! Flow` becomes `user-login-flow`. |
| Naming.DefaultMarkdownPath | src/tools/swimlane-tools.ts:287-296 | Without a folder the path is `docs/diagrams/<stem>.md`. With a folder that is a plain segment it is `docs/diagrams/<folder>/<stem>.md`. For any folder at all, the path ends with `/<stem>.md` or is that file name. |
| Naming.DefaultImagePath | src/tools/swimlane-tools.ts:301-306 | The image goes to `docs/diagrams/images/<stem>.png`, where the stem comes from the title or from `diagram`. |
| Naming.DefaultImagePathUntitled | src/tools/swimlane-tools.ts:302-305 | An absent or empty title gives `docs/diagrams/images/diagram.png`. |
| Naming.DefaultImagePathNoStem | src/tools/swimlane-tools.ts:302-305 | A non-empty title with no ASCII letter or digit gives `docs/diagrams/images/.png`: the fallback does not apply after sanitising. |
| Paths.JoinEndsWithFile | src/tools/swimlane-tools.ts:292 | Whatever the middle arguments of `join` are, a join that starts with a plain segment and ends with a plain file name yields that file name, either alone or after a `/`. |
| Paths.DirnameOfChild | src/tools/swimlane-tools.ts:232 | The directory of `d/f` is `d`, when `f` is a file name and `d` has no trailing `/`. |
| Handlers.MarkdownPathFor | src/tools/swimlane-tools.ts:49 | A non-empty output path is used verbatim. Otherwise the path is the default Markdown path, under the folder when one is given. |
| Handlers.ImagePathFor | src/tools/swimlane-tools.ts:229 | A non-empty output path is used verbatim; otherwise the image goes to `docs/diagrams/images/<stem>.png`. |
| Remote.RequestBody | src/tools/swimlane-tools.ts:182-185 | The body always carries `text`. It carries `high_resolution` exactly when high resolution is asked for, and then the value is `true`. It has no other key. |
| Remote.RequestBodyRoundTrip | src/tools/swimlane-tools.ts:217-220 | Reading a body back gives the text and the resolution it was built from. |
| Remote.LinkOutcome | src/tools/swimlane-tools.ts:187-204 | The link request succeeds exactly on status 201 with a non-empty `Location`, and then yields that location. Any other status gives `Swimlanes.io API error: <status> <statusText>`. A 201 without a location gives the missing-location message. A transport error passes through unchanged. |
| Remote.LinkOkIsNotCreated | src/tools/swimlane-tools.ts:190 | A 200 reply is not accepted: it fails with an API error naming status 200. |
| Remote.ImageOutcome | src/tools/swimlane-tools.ts:222-226 | The image request succeeds exactly on a 2xx status, and then yields the body bytes. Another status gives the API error for that status and status text. A transport error passes through unchanged. |
| Remote.ApiErrorRoundTrip | src/tools/swimlane-tools.ts:243-245 | Status and status text can be read back from an API error message. |
| Remote.ApiErrorInjective | src/tools/swimlane-tools.ts:201 | Different status and status-text pairs give different API error messages. |
| Handlers.FetchLink | src/tools/swimlane-tools.ts:187-191 | The link request is one POST to `/v1/image-link`, with the request body and no redirect followed. Its outcome is the classified reply. |
| Handlers.SaveFile | src/tools/swimlane-tools.ts:231-236 | The directory of the path is created first, then the file is written; a failed `mkdir` stops before the write. The call succeeds exactly when both succeed. A failed `mkdir` fails with its own message; a failed write after a good `mkdir` fails with the write's message. The path counts as written exactly when both succeed. |
| Handlers.DownloadImage | src/tools/swimlane-tools.ts:210-248 | The first step is the POST to `/v1/image` following up to 5 redirects. Success happens exactly when the image, `mkdir`, the write and the link all succeed, and yields the image path and the link. Otherwise each failing step fails the call with its own message, and only steps before it ran. The image path is written exactly when the image arrived and both `mkdir` and the write succeeded, whatever the link then does. The bytes written and the follow-up link request are stated by `DownloadSavesThenLinks`. |
| Handlers.DownloadFailsAtFirstError | src/tools/swimlane-tools.ts:210-248 | A failed download reports the message of its first failing step, in the order image, `mkdir`, write, link. |
| Handlers.SaveAndLink | src/tools/swimlane-tools.ts:228-241 | After the image arrives it is saved before the link is requested: when `mkdir` and the write succeed, the steps are `mkdir`, the write of the image bytes to the path, then the link request. A failed `mkdir` stops after one step and a failed write after two, each with its own message; a failed link gives the link's error. Success yields the path and the link. The path is the only file written, and it is written exactly when `mkdir` and the write succeed. |
| Handlers.DownloadSavesThenLinks | src/tools/swimlane-tools.ts:216-239 | Once the image arrived and was saved, the download makes four steps in order: the image request, `mkdir` of the image's directory, the write of the received bytes to the image path, then the link request for the same text and resolution. |
| Handlers.DownloadSteps | src/tools/swimlane-tools.ts:210-248 | A download that succeeds with the default image path takes exactly those four steps, all without error. It yields the default image path and the link. |
| Handlers.LinkFailureKeepsImage | src/tools/swimlane-tools.ts:233-239 | When only the link fails, the download fails with the link's error after 4 steps. The third step wrote the image; the fourth is the link request. |
| Handlers.GetImageLink | src/tools/swimlane-tools.ts:138-175 | The answer is well formed and the tool touches no file. Invalid arguments mean no step. Otherwise the only step is the link request for the prepared text. Success happens exactly when the arguments parse and the link succeeds, and yields the link. A parsed call whose link fails answers with exactly the link's error. |
| Handlers.AskLink | src/tools/swimlane-tools.ts:148-173 | Once the arguments are valid, `getSwimlaneImageLink` makes exactly one request, the link POST for the given text and resolution, and touches no file. It succeeds exactly when the link does, answering with the link. Otherwise it answers with exactly the link's error. |
| Handlers.LinkOkFailsTheCall | src/tools/swimlane-tools.ts:187-204 | A 200 OK link reply fails the tool call with `Swimlanes.io API error: 200 <statusText>`, after the one request. |
| Handlers.CreatedWithoutLocationFailsTheCall | src/tools/swimlane-tools.ts:193-203 | A 201 Created without a usable `Location` fails the tool call with `No location header returned from Swimlanes.io API`. |
| Handlers.GenerateImage | src/tools/swimlane-tools.ts:90-133 | The answer is well formed, and invalid arguments are reported exactly when the schema rejects them. The first step is the image request for the prepared text. The call succeeds exactly when the arguments parse and the image, `mkdir`, the write and the link all succeed. On success the answer holds the image path and the link. A parsed call that fails answers with the message of the first failing step: image, `mkdir`, write, link. For every parsed call the image path is the only file written, and it is written exactly when the image, `mkdir` and the write succeed, so a failed link leaves the image written. |
| Handlers.CreateDocumentation | src/tools/swimlane-tools.ts:18-85 | The answer is well formed, and the first step is the link request with high resolution off. The call succeeds exactly when the arguments parse, the link succeeds, every step of the image download succeeds when an image is asked for, and `mkdir` and the page write succeed. On success the image fields are present exactly when `includeImage` is set. `imageUrl` then equals `diagramUrl`, and the image is written before the page, at the default image path. A parsed call that fails answers with the message of the first failing step: link, image download (when asked for), `mkdir`, page write. Failed or not, the image is written when the link succeeded and the download saved it, and the page is written exactly when the call succeeds. |
| Handlers.Document | src/tools/swimlane-tools.ts:20-56 | After validation the link comes first. The steps succeed exactly when the link succeeds, the whole image download succeeds if an image is asked for, and `mkdir` and the page write succeed. A success reports the link and the page path, and writes the image (if asked) and then the page. |
| Handlers.DocumentFailsAtFirstError | src/tools/swimlane-tools.ts:20-56 | A failure carries the message of the first failing step: link, image download (when asked for), `mkdir`, page write. |
| Handlers.DocumentWrites | src/tools/swimlane-tools.ts:29-56 | Failed or not, the image is written when the link succeeded, an image was asked for and the download saved it; the page follows exactly when the call succeeds. A failed page write leaves the image written. |
| Handlers.Illustrate | src/tools/swimlane-tools.ts:31-56 | Once the link is known, the image is downloaded only when asked for, then the page is written. The steps succeed exactly when the whole download succeeds (if asked for) and `mkdir` and the page write succeed. A success reports the link and page path and writes the image (if asked) before the page. |
| Handlers.IllustrateFailsAtFirstError | src/tools/swimlane-tools.ts:31-56 | A failure carries the message of the first failing step: image download (when asked for), `mkdir`, page write. |
| Handlers.IllustrateWrites | src/tools/swimlane-tools.ts:31-56 | Failed or not, the image is written when one was asked for and the download saved it; the page follows exactly when the call succeeds. |
| Handlers.Report | src/tools/swimlane-tools.ts:62-67 | The report names the page path and diagram URL. `imagePath` is set exactly when an image was asked for. `imageUrl` is set exactly when `imagePath` is, and then equals the diagram URL. |
| Handlers.WritePage | src/tools/swimlane-tools.ts:39-56 | The call succeeds exactly when both `mkdir` and the write succeed; otherwise it fails with the message of the first one that failed. The page path is written exactly when both succeed, and `imageUrl` is set exactly when the image path is non-empty. The first step creates the page's directory. After a good `mkdir` the second and last step writes the page template, filled with the title, description, prepared text, diagram URL, image path and date, as UTF-8 to the page path. |
| Handlers.PageSteps | src/tools/swimlane-tools.ts:39-56 | A page write that succeeds takes exactly two steps: `mkdir` of the page's directory, then the write of the filled template. |
| Handlers.CreateStopsAtLink | src/tools/swimlane-tools.ts:29 | When the link request fails, create fails with that error after one step and writes nothing. |
| Handlers.CreateWithoutImage | src/tools/swimlane-tools.ts:18-71 | Without an image, output path or folder, the trace is exactly three steps: the link request, creating `docs/diagrams`, and writing `docs/diagrams/<stem>.md`. The page is written without an image section. |
| Handlers.CreateRunWithImage | src/tools/swimlane-tools.ts:18-71 | With an image asked for and no failure, create takes seven steps: the link request, the four download steps (image request, `mkdir`, image write, link request), `mkdir` of the page's directory, and the page write. The page embeds the image saved at the default image path. The answer carries that image path, with `imageUrl` equal to the diagram URL. |
| Handlers.DocAnswer | src/tools/swimlane-tools.ts:58-84 | A successful answer carries `markdownPath` and `diagramUrl` with the report's values. `imagePath` and `imageUrl` appear exactly when defined, with their values, as `JSON.stringify` drops `undefined`; no other key appears. A failed answer has only `success` and `error`, and a thrown error's message is the `error`. |
| Handlers.CreateAnswerImageFields | src/tools/swimlane-tools.ts:66-67 | In a successful create answer, `imagePath` appears exactly when an image was asked for, and `imageUrl` exactly with it, equal to `diagramUrl`. |
| Handlers.LinkAnswer | src/tools/swimlane-tools.ts:151-173 | Success answers `{success, imageUrl}` with the link; failure answers `{success, error}`, and a thrown error's message is the `error`. |
| Handlers.ImageAnswer | src/tools/swimlane-tools.ts:108-131 | Success answers `{success, imagePath, imageUrl}` with the report's values; failure answers `{success, error}`, and a thrown error's message is the `error`. |
| Handlers.FailureAnswer | src/tools/swimlane-tools.ts:72-84 | A failure answer is `{success: false, error}`, carrying the thrown error's message. |
| Markdown.MarkdownContent | src/tools/swimlane-tools.ts:253-282 | The page template. Its properties are stated by the lemmas below: `PageFrame` for the fixed frame, `DescriptionParagraph` and `FigureSection` for the optional parts, `EmptyIsAbsent` for empty values. |
| Markdown.PageFrame | src/tools/swimlane-tools.ts:253-282 | Every page starts with `# <title>` and ends with the date footer. It contains the fixed overview, the diagram source inside a `swimlanes` fence, and the interactive-diagram link. |
| Markdown.EmptyIsAbsent | src/tools/swimlane-tools.ts:264 | An empty description or image path gives the same page as an absent one. |
| Markdown.DescriptionParagraph | src/tools/swimlane-tools.ts:264-266 | A non-empty description inserts exactly `*description*` after the heading and changes nothing else. |
| Markdown.FigureSection | src/tools/swimlane-tools.ts:272-275 | A non-empty image path inserts exactly the `## Diagram` section with the image, just before the links section, and changes nothing else. |
| Markdown.ImageReference | src/tools/swimlane-tools.ts:273 | A path starting with `./` is kept. Any other path becomes `./` followed by a suffix of the path whose segments are its last two (all of them when fewer). |
| Markdown.ImageReferenceOfNested | src/tools/swimlane-tools.ts:273 | `dirs/d/f` is referred to as `./d/f`; this covers the default image location. |
| Markdown.DatePart | src/tools/swimlane-tools.ts:279 | The date is a prefix of the timestamp and holds no `T`. |
| Markdown.DatePartOf | src/tools/swimlane-tools.ts:279 | The date part of `<date>T<time>` is `<date>`. |
| Schemas.ParseCreate | src/types.ts:4-11 | No arguments give one `Required` issue. Otherwise parsing succeeds exactly when every field check passes, and a failure always carries an issue. A success carries the given `text` and `title`. `description`, `outputPath` and `folderStructure` are the given strings, or absent when the key is. `includeImage` is the given boolean, or true when absent. |
| Schemas.ParseImage | src/types.ts:13-18 | As for create, with `text`, `title`, `highResolution` and `outputPath`. A success carries the given text; the title and output path are the given strings, or absent; `highResolution` is the given boolean, or false when absent. |
| Schemas.ParseLink | src/types.ts:20-24 | As for create, with `text`, `title` and `highResolution`. A success carries the given text; the title is the given string, or absent; `highResolution` is the given boolean, or false when absent. |
| Schemas.MinimalArguments | src/types.ts:4-24 | The smallest valid arguments (`text`, plus `title` for create) parse to the given values, every optional field absent and every default applied: `includeImage` true, `highResolution` false. |
| Schemas.NonEmptyString | src/types.ts:5 | A field is valid exactly when it is a non-empty string. The issue is `Required` when the field is missing, the custom message when it is empty, and a type error otherwise. |
| Schemas.OptionalString | src/types.ts:7 | A field is valid exactly when it is absent or a string. |
| Schemas.DefaultedBool | src/types.ts:9 | A field is valid exactly when it is absent or a boolean, and absent means the default. |
| Schemas.CreateRoundTrip | src/types.ts:4-11 | Every documentation record with a non-empty text and title parses back unchanged from its argument object. |
| Schemas.ImageRoundTrip | src/types.ts:13-18 | Every image record with a non-empty text parses back unchanged; an empty title is accepted. |
| Schemas.LinkRoundTrip | src/types.ts:20-24 | Every link record with a non-empty text parses back unchanged; an empty title is accepted. |
| Schemas.TextIsRequired | src/types.ts:5 | All three schemas reject an empty or missing text. The first issue names `text`, with the custom message for the empty string and `Required` for a missing field. |
| Schemas.CreateTitleRequired | src/types.ts:6 | The documentation schema rejects an empty or missing title, with an issue naming `title`. |
| Schemas.IncludeImageDefault | src/types.ts:9 | `includeImage` is true when absent, and the given boolean otherwise. |
| Schemas.HighResolutionDefault | src/types.ts:16 | `highResolution` is false when absent, for both the image and the link schema. |
| Schemas.OptionalFieldMustBeString | src/types.ts:7-10 | A non-string `description`, `outputPath` or `folderStructure` is rejected with a type issue naming that field. |
| Schemas.LinkIgnoresOtherKeys | src/types.ts:20-24 | Keys other than `text`, `title` and `highResolution`, `outputPath` included, do not affect the link schema's result. |

## Left out

- The server plumbing in `src/index.ts` is not modelled: the stdio transport, the tool listing and the name-to-handler switch. Each tool is modelled as the function the switch calls.
- The clock is a parameter: `createSwimlaneDiagram` takes the ISO-8601 timestamp whose date part ends the page.
- The network and the filesystem are parameters. Each reply, `mkdir` outcome and `writeFile` outcome is an input, and the steps are recorded rather than performed. Redirect following, headers and `arraybuffer` decoding are not modelled; the image body is an opaque byte sequence.
- HTTP transport errors are modelled only by their message; an error with no message, the "Unknown error occurred" branch, cannot arise from the modelled steps.
- Handlers.FailureAnswer: the text of a validation error is left out. For rejected arguments the `error` field is `describe(issues)`, where `describe` is supplied by the caller, because zod's `ZodError.message` rendering is library formatting.
- `JSON.stringify` pretty-printing is not modelled; answers are JSON objects, with `undefined` fields dropped.
- `toLowerCase` is ASCII only; Unicode case mapping is not modelled.
- `path.join` and `path.dirname` are modelled for POSIX separators only; Windows paths are not modelled.
- Concurrent tool calls are not modelled; each call is one sequential pipeline.
- The `SwimlaneError` and `SwimlaneErrorCode` types and the service API interfaces in `src/types.ts` are declared but not used by the tools.
- Markdown.FigureSection: the page states where the image section goes relative to the page without one. It does not claim that `## Diagram\n\n` is absent otherwise, because the diagram text itself may contain that line.

=== FILE: effects.dfy ===
/**
 * What a tool call does to the outside world, and what it answers.
 *
 * Every request, directory creation and file write becomes a `Step` of a
 * trace. A step records the effect attempted and, when it failed, the message
 * of the error it raised. The outcome of each step is an input of the model,
 * never simulated. A handler's answer is an `Envelope`: the success record, or
 * the fault that ended the call.
 */
module Effects {
  import opened Wrappers
  import opened Json
  import opened Schemas

  /** Contents of a written file: raw image bytes, or text written as UTF-8. */
  datatype FileData = Bytes(bytes: seq<bv8>) | Utf8(text: string)

  datatype Effect =
    | Post(url: string, body: Object, maxRedirects: nat)
    | MakeDirectory(path: string)
    | WriteFile(path: string, data: FileData)

  datatype Step = Step(effect: Effect, error: Option<string>)

  /** What the filesystem answers to one `mkdir` or `writeFile`. */
  datatype FsOutcome = FsOk | FsError(message: string)

  /** Why a call failed: its arguments were rejected, or a later step threw. */
  datatype Fault = InvalidArguments(issues: seq<Issue>) | Thrown(message: string)

  /** `{ success: true, ... }` or `{ success: false, error }`. */
  datatype Envelope<+T> = Succeeded(value: T) | Failed(fault: Fault)

  /** A finished tool call: its answer and everything it did, in order. */
  datatype Run<+T> = Run(envelope: Envelope<T>, trace: seq<Step>)

  /** A part of a call that can throw: its result and the steps it took. */
  datatype Attempt<+T> = Attempt(result: Result<T, string>, trace: seq<Step>)

  predicate AllOk(trace: seq<Step>) {
    forall i :: 0 <= i < |trace| ==> trace[i].error.None?
  }

  /** The trace stops at its first failed step, and that step's error is `message`. */
  predicate EndsWithError(trace: seq<Step>, message: string) {
    |trace| >= 1 && AllOk(trace[..|trace| - 1]) && trace[|trace| - 1].error == Some(message)
  }

  /**
   * An attempt succeeds exactly when none of its steps failed, and a failed
   * attempt reports the error of its last step, after which nothing ran.
   */
  predicate Faithful<T>(a: Attempt<T>) {
    match a.result
    case Success(_) => AllOk(a.trace)
    case Failure(message) => EndsWithError(a.trace, message)
  }

  /**
   * The envelope rules of a handler: rejected arguments mean nothing was
   * attempted; a thrown error is the error of the last step, and no step ran
   * after it; success means every step succeeded.
   */
  predicate WellFormed<T>(run: Run<T>) {
    match run.envelope
    case Succeeded(_) => AllOk(run.trace)
    case Failed(InvalidArguments(_)) => run.trace == []
    case Failed(Thrown(message)) => EndsWithError(run.trace, message)
  }

  /** The step for an effect with the given outcome. */
  function StepOf<T>(effect: Effect, r: Result<T, string>): (s: Step)
    ensures s.effect == effect
    ensures s.error.None? <==> r.Success?
    ensures r.Failure? ==> s.error == Some(r.error)
  {
    Step(effect, if r.Success? then None else Some(r.error))
  }

  function FsResult(o: FsOutcome): (r: Result<(), string>)
    ensures r.Success? <==> o.FsOk?
    ensures o.FsError? ==> r.error == o.message
  {
    match o
    case FsOk => Success(())
    case FsError(message) => Failure(message)
  }

  /** A step that wrote a file without error. */
  predicate WroteFile(s: Step) {
    s.effect.WriteFile? && s.error.None?
  }

  /** The paths a trace wrote successfully, in order; failed writes are left out. */
  function Written(trace: seq<Step>): (paths: seq<string>)
    ensures |paths| <= |trace|
  {
    if trace == [] then []
    else
      var rest := Written(trace[1..]);
      if WroteFile(trace[0]) then [trace[0].effect.path] + rest else rest
  }

  /** A trace that neither creates a directory nor writes a file. */
  predicate TouchesNoFiles(trace: seq<Step>) {
    forall i :: 0 <= i < |trace| ==> trace[i].effect.Post?
  }

  // ---------------------------------------------------------------------
  // Composition

  /** A successful prefix followed by a faithful attempt is faithful. */
  lemma AfterSuccess<T>(first: seq<Step>, a: Attempt<T>)
    requires AllOk(first)
    requires Faithful(a)
    ensures Faithful(Attempt(a.result, first + a.trace))
  {
    var t := first + a.trace;
    if a.result.Failure? {
      assert t[..|t| - 1] == first + a.trace[..|a.trace| - 1];
    }
  }

  lemma {:induction false} WrittenConcat(a: seq<Step>, b: seq<Step>)
    ensures Written(a + b) == Written(a) + Written(b)
  {
    if a == [] {
      assert a + b == b;
    } else {
      assert (a + b)[1..] == a[1..] + b;
      WrittenConcat(a[1..], b);
    }
  }

  /** A trace of one step wrote its path exactly when that step wrote a file without error. */
  lemma WrittenStep(s: Step)
    ensures Written([s]) == if WroteFile(s) then [s.effect.path] else []
  {
    assert [s][1..] == [];
  }

  lemma {:induction false} NoWritesWritten(trace: seq<Step>)
    requires TouchesNoFiles(trace)
    ensures Written(trace) == []
  {
    if trace != [] {
      NoWritesWritten(trace[1..]);
    }
  }

  /** Steps that touch no file add nothing to what a trace wrote. */
  lemma WrittenAfterRequests(first: seq<Step>, rest: seq<Step>)
    requires TouchesNoFiles(first)
    ensures Written(first + rest) == Written(rest)
  {
    NoWritesWritten(first);
    WrittenConcat(first, rest);
    assert [] + Written(rest) == Written(rest);
  }
}

=== FILE: handlers.dfy ===
/**
 * The three tools, each a pipeline: validate the arguments, put the title
 * line into the diagram text, make the requests, write the files, answer.
 *
 * The replies of the service and the outcomes of directory creation and
 * file writes are inputs (a "world" per tool); each tool returns its
 * envelope together with the trace of the steps it took.
 */
module Handlers {
  import opened Wrappers
  import opened Strings
  import opened Json
  import opened Paths
  import opened Naming
  import opened Schemas
  import opened Remote
  import opened Markdown
  import opened Effects

  const TitleKeyword := "title:"

  // ---------------------------------------------------------------------
  // The diagram text

  /** The title line the tools put in front of a diagram text. */
  function TitleLine(title: string): string {
    "title: " + title + "\n"
  }

  /**
   * The diagram text sent to the service: the text itself, preceded by a
   * title line when a non-empty title is given and the text does not
   * already start with `title:`.
   */
  function PrepareText(text: string, title: Option<string>): (r: string)
    ensures EndsWith(r, text)
    ensures r == text <==> !Truthy(title) || StartsWith(text, TitleKeyword)
    ensures r != text ==> r == TitleLine(title.value) + text
    ensures Truthy(title) ==> StartsWith(r, TitleKeyword)
  {
    if Truthy(title) && !StartsWith(text, TitleKeyword) then
      TitleLineShape(title.value, text);
      TitleLine(title.value) + text
    else text
  }

  lemma TitleLineShape(title: string, text: string)
    ensures StartsWith(TitleLine(title) + text, TitleKeyword)
    ensures EndsWith(TitleLine(title) + text, text)
    ensures TitleLine(title) + text != text
  {
    var r := TitleLine(title) + text;
    assert r == TitleKeyword + (" " + title + "\n" + text);
    assert r[..|TitleKeyword|] == TitleKeyword;
    assert |r| > |text|;
  }

  /** Preparing a prepared text again changes nothing. */
  lemma PrepareTextIdempotent(text: string, title: Option<string>)
    ensures PrepareText(PrepareText(text, title), title) == PrepareText(text, title)
  {
  }

  // ---------------------------------------------------------------------
  // Requests and file writes

  /** `generateImageLink(text, highResolution)`, as one request. */
  function FetchLink(text: string, highResolution: bool, reply: LinkReply): (a: Attempt<string>)
    ensures Faithful(a)
    ensures a.result == LinkOutcome(reply)
    ensures |a.trace| == 1 && TouchesNoFiles(a.trace)
    ensures a.trace[0].effect == Post(ImageLinkUrl, RequestBody(text, highResolution), LinkMaxRedirects)
  {
    var outcome := LinkOutcome(reply);
    Attempt(outcome, [StepOf(Post(ImageLinkUrl, RequestBody(text, highResolution), LinkMaxRedirects), outcome)])
  }

  /** Creates the directory of `path`, then writes `data` to it. */
  function SaveFile(path: string, data: FileData, mkdir: FsOutcome, write: FsOutcome): (a: Attempt<()>)
    ensures Faithful(a)
    ensures a.result.Success? <==> mkdir.FsOk? && write.FsOk?
    ensures 1 <= |a.trace| <= 2
    ensures a.trace[0].effect == MakeDirectory(Dirname(path))
    ensures |a.trace| == 2 <==> mkdir.FsOk?
    ensures |a.trace| == 2 ==> a.trace[1].effect == WriteFile(path, data)
    ensures mkdir.FsError? ==> a.result == Failure(mkdir.message)
    ensures mkdir.FsOk? && write.FsError? ==> a.result == Failure(write.message)
    ensures Written(a.trace) == if mkdir.FsOk? && write.FsOk? then [path] else []
  {
    var made := StepOf(MakeDirectory(Dirname(path)), FsResult(mkdir));
    WrittenStep(made);
    if mkdir.FsError? then Attempt(Failure(mkdir.message), [made])
    else
      var wrote := StepOf(WriteFile(path, data), FsResult(write));
      WrittenStep(wrote);
      WrittenConcat([made], [wrote]);
      assert [made] + [wrote] == [made, wrote];
      Attempt(if write.FsOk? then Success(()) else Failure(write.message), [made, wrote])
  }

  /** What the world answers to the steps of `downloadImage`, in order. */
  datatype DownloadWorld = DownloadWorld(image: ImageReply, mkdir: FsOutcome, write: FsOutcome, link: LinkReply)

  datatype Download = Download(imagePath: string, imageUrl: string)

  /** Every step of `downloadImage` succeeds in world `w`. */
  predicate DownloadSucceeds(w: DownloadWorld) {
    ImageOutcome(w.image).Success? && w.mkdir.FsOk? && w.write.FsOk? && LinkOutcome(w.link).Success?
  }

  /**
   * The message of the first failing step of `downloadImage`, in the order
   * image, `mkdir`, write, link; `None` when every step succeeds.
   */
  function DownloadError(w: DownloadWorld): (e: Option<string>)
    ensures e.None? <==> DownloadSucceeds(w)
  {
    if ImageOutcome(w.image).Failure? then Some(ImageOutcome(w.image).error)
    else if w.mkdir.FsError? then Some(w.mkdir.message)
    else if w.write.FsError? then Some(w.write.message)
    else if LinkOutcome(w.link).Failure? then Some(LinkOutcome(w.link).error)
    else None
  }

  /** The image arrived and was saved, whatever the link request that follows does. */
  predicate ImageSaved(w: DownloadWorld) {
    ImageOutcome(w.image).Success? && w.mkdir.FsOk? && w.write.FsOk?
  }

  /** Where `downloadImage` saves the image: the given path, or the default one. */
  function ImagePathFor(outputPath: Option<string>, title: Option<string>): (path: string)
    ensures Truthy(outputPath) ==> path == outputPath.value
    ensures !Truthy(outputPath) ==> path == ImagesDir + "/" + (ImageStem(title) + ".png")
  {
    OrElse(outputPath, DefaultImagePath(title))
  }

  /**
   * `downloadImage`: request the image, save it, then request the link.
   * Nothing after a failed step runs.
   */
  function DownloadImage(text: string, title: Option<string>, outputPath: Option<string>,
                         highResolution: bool, w: DownloadWorld): (a: Attempt<Download>)
    ensures Faithful(a)
    ensures |a.trace| >= 1
    ensures a.trace[0].effect == Post(ImageUrl, RequestBody(text, highResolution), ImageMaxRedirects)
    ensures a.result.Success? <==> DownloadSucceeds(w)
    ensures a.result.Success? ==>
      a.result.value == Download(ImagePathFor(outputPath, title), LinkOutcome(w.link).value)
    ensures ImageOutcome(w.image).Failure? ==> a.result == Failure(ImageOutcome(w.image).error) && |a.trace| == 1
    ensures ImageOutcome(w.image).Success? && w.mkdir.FsError? ==> a.result == Failure(w.mkdir.message)
    ensures ImageOutcome(w.image).Success? && w.mkdir.FsOk? && w.write.FsError? ==> a.result == Failure(w.write.message)
    ensures ImageOutcome(w.image).Success? && w.mkdir.FsOk? && w.write.FsOk? && LinkOutcome(w.link).Failure? ==>
      a.result == Failure(LinkOutcome(w.link).error)
    ensures Written(a.trace) == if ImageSaved(w) then [ImagePathFor(outputPath, title)] else []
  {
    var fetched := ImageOutcome(w.image);
    var post := StepOf(Post(ImageUrl, RequestBody(text, highResolution), ImageMaxRedirects), fetched);
    if fetched.Failure? then Attempt(Failure(fetched.error), [post])
    else
      assert TouchesNoFiles([post]);
      Then([post], SaveAndLink(ImagePathFor(outputPath, title), fetched.value, text, highResolution, w))
  }

  /** A failed download reports the error of its first failing step. */
  lemma DownloadFailsAtFirstError(text: string, title: Option<string>, outputPath: Option<string>,
                                  highResolution: bool, w: DownloadWorld)
    ensures var a := DownloadImage(text, title, outputPath, highResolution, w);
      a.result.Failure? ==> Some(a.result.error) == DownloadError(w)
  {
  }

  /** The part of `downloadImage` after the image arrived: save it, then request the link. */
  function SaveAndLink(path: string, image: seq<bv8>, text: string, highResolution: bool,
                       w: DownloadWorld): (a: Attempt<Download>)
    ensures Faithful(a)
    ensures a.result.Success? <==> w.mkdir.FsOk? && w.write.FsOk? && LinkOutcome(w.link).Success?
    ensures a.result.Success? ==> a.result.value == Download(path, LinkOutcome(w.link).value)
    ensures w.mkdir.FsError? ==> a.result == Failure(w.mkdir.message) && |a.trace| == 1
    ensures w.mkdir.FsOk? && w.write.FsError? ==> a.result == Failure(w.write.message) && |a.trace| == 2
    ensures w.mkdir.FsOk? && w.write.FsOk? && LinkOutcome(w.link).Failure? ==> a.result == Failure(LinkOutcome(w.link).error)
    ensures w.mkdir.FsOk? && w.write.FsOk? ==>
      |a.trace| == 3 &&
      a.trace[0] == Step(MakeDirectory(Dirname(path)), None) &&
      a.trace[1] == Step(WriteFile(path, Bytes(image)), None) &&
      a.trace[2].effect == Post(ImageLinkUrl, RequestBody(text, highResolution), LinkMaxRedirects)
    ensures Written(a.trace) == if w.mkdir.FsOk? && w.write.FsOk? then [path] else []
  {
    var saved := SaveFile(path, Bytes(image), w.mkdir, w.write);
    if saved.result.Failure? then Attempt(Failure(saved.result.error), saved.trace)
    else
      var link := FetchLink(text, highResolution, w.link);
      AfterSuccess(saved.trace, link);
      WrittenConcat(saved.trace, link.trace);
      NoWritesWritten(link.trace);
      var trace := saved.trace + link.trace;
      match link.result
      case Success(url) => Attempt(Success(Download(path, url)), trace)
      case Failure(message) => Attempt(Failure(message), trace)
  }

  /**
   * Once the image arrived and was saved, the download's steps are the image
   * request, `mkdir` of the image's directory, the write of the received
   * bytes, then the link request for the same text and resolution.
   */
  lemma DownloadSavesThenLinks(text: string, title: Option<string>, outputPath: Option<string>,
                               highResolution: bool, w: DownloadWorld)
    requires ImageSaved(w)
    ensures var a := DownloadImage(text, title, outputPath, highResolution, w);
      var path := ImagePathFor(outputPath, title);
      |a.trace| == 4 &&
      a.trace[0] == Step(Post(ImageUrl, RequestBody(text, highResolution), ImageMaxRedirects), None) &&
      a.trace[1] == Step(MakeDirectory(Dirname(path)), None) &&
      a.trace[2] == Step(WriteFile(path, Bytes(ImageOutcome(w.image).value)), None) &&
      a.trace[3].effect == Post(ImageLinkUrl, RequestBody(text, highResolution), LinkMaxRedirects)
  {
    var path := ImagePathFor(outputPath, title);
    var post := StepOf(Post(ImageUrl, RequestBody(text, highResolution), ImageMaxRedirects), ImageOutcome(w.image));
    var rest := SaveAndLink(path, ImageOutcome(w.image).value, text, highResolution, w);
    assert DownloadImage(text, title, outputPath, highResolution, w) == Then([post], rest);
  }

  /**
   * The image is written before the link is requested: when the link fails,
   * the call fails with the link's error and the image file stays written.
   */
  lemma LinkFailureKeepsImage(text: string, title: Option<string>, outputPath: Option<string>,
                              highResolution: bool, w: DownloadWorld)
    requires ImageOutcome(w.image).Success? && w.mkdir.FsOk? && w.write.FsOk?
    requires LinkOutcome(w.link).Failure?
    ensures var a := DownloadImage(text, title, outputPath, highResolution, w);
      a.result == Failure(LinkOutcome(w.link).error) &&
      |a.trace| == 4 &&
      a.trace[2] == Step(WriteFile(ImagePathFor(outputPath, title), Bytes(ImageOutcome(w.image).value)), None) &&
      a.trace[3].effect == Post(ImageLinkUrl, RequestBody(text, highResolution), LinkMaxRedirects)
  {
    var path := ImagePathFor(outputPath, title);
    var image := ImageOutcome(w.image).value;
    var post := StepOf(Post(ImageUrl, RequestBody(text, highResolution), ImageMaxRedirects), ImageOutcome(w.image));
    var saved := SaveFile(path, Bytes(image), w.mkdir, w.write);
    assert saved.trace == [Step(MakeDirectory(Dirname(path)), None), Step(WriteFile(path, Bytes(image)), None)];
    var link := FetchLink(text, highResolution, w.link);
    var rest := SaveAndLink(path, image, text, highResolution, w);
    assert rest == Attempt(Failure(LinkOutcome(w.link).error), saved.trace + link.trace);
    assert DownloadImage(text, title, outputPath, highResolution, w) == Then([post], rest);
  }

  // ---------------------------------------------------------------------
  // The tools

  function Settle<T>(issues: seq<Issue>): (run: Run<T>)
    ensures WellFormed(run)
  {
    Run(Failed(InvalidArguments(issues)), [])
  }

  function Finish<T, U>(a: Attempt<T>, report: T -> U): (run: Run<U>)
    requires Faithful(a)
    ensures WellFormed(run)
    ensures run.trace == a.trace
    ensures run.envelope.Succeeded? <==> a.result.Success?
    ensures a.result.Success? ==> run.envelope.value == report(a.result.value)
    ensures a.result.Failure? ==> run.envelope.fault == Thrown(a.result.error)
  {
    match a.result
    case Success(v) => Run(Succeeded(report(v)), a.trace)
    case Failure(message) => Run(Failed(Thrown(message)), a.trace)
  }

  /**
   * `getSwimlaneImageLink`: the link to the diagram. It touches no file,
   * and it makes at most one request.
   */
  function GetImageLink(input: Option<Object>, reply: LinkReply): (run: Run<string>)
    ensures WellFormed(run)
    ensures TouchesNoFiles(run.trace) && |run.trace| <= 1
    ensures run.envelope.Failed? && run.envelope.fault.InvalidArguments? <==> ParseLink(input).Failure?
    ensures ParseLink(input).Failure? ==> run.envelope == Failed(InvalidArguments(ParseLink(input).error))
    ensures ParseLink(input).Success? ==>
      var p := ParseLink(input).value;
      |run.trace| == 1 &&
      run.trace[0].effect == Post(ImageLinkUrl, RequestBody(PrepareText(p.text, p.title), p.highResolution), LinkMaxRedirects)
    ensures run.envelope.Succeeded? <==> ParseLink(input).Success? && LinkOutcome(reply).Success?
    ensures run.envelope.Succeeded? ==> run.envelope.value == LinkOutcome(reply).value
    ensures ParseLink(input).Success? && LinkOutcome(reply).Failure? ==>
      run.envelope == Failed(Thrown(LinkOutcome(reply).error))
  {
    match ParseLink(input)
    case Failure(issues) => Settle(issues)
    case Success(p) => AskLink(PrepareText(p.text, p.title), p.highResolution, reply)
  }

  /** The request `getSwimlaneImageLink` makes once its arguments are valid. */
  function AskLink(text: string, highResolution: bool, reply: LinkReply): (run: Run<string>)
    ensures WellFormed(run)
    ensures TouchesNoFiles(run.trace) && |run.trace| == 1
    ensures run.trace[0].effect == Post(ImageLinkUrl, RequestBody(text, highResolution), LinkMaxRedirects)
    ensures run.envelope.Succeeded? <==> LinkOutcome(reply).Success?
    ensures run.envelope.Succeeded? ==> run.envelope.value == LinkOutcome(reply).value
    ensures LinkOutcome(reply).Failure? ==> run.envelope == Failed(Thrown(LinkOutcome(reply).error))
  {
    var link := FetchLink(text, highResolution, reply);
    assert TouchesNoFiles(link.trace);
    Finish(link, (url: string) => url)
  }

  /**
   * The link request accepts only 201 Created: a 200 OK fails the tool call
   * with the service's status line, after the one request.
   */
  lemma LinkOkFailsTheCall(input: Option<Object>, statusText: string, location: Option<string>)
    requires ParseLink(input).Success?
    ensures var run := GetImageLink(input, LinkResponse(200, statusText, location));
      run.envelope == Failed(Thrown(ApiError(200, statusText))) &&
      StartsWith(run.envelope.fault.message, ApiErrorPrefix + "200") &&
      |run.trace| == 1
  {
    LinkOkIsNotCreated(statusText, location);
  }

  /** A 201 Created without a usable location header fails the tool call with its own message. */
  lemma CreatedWithoutLocationFailsTheCall(input: Option<Object>, statusText: string, location: Option<string>)
    requires ParseLink(input).Success?
    requires !Truthy(location)
    ensures var run := GetImageLink(input, LinkResponse(Created, statusText, location));
      run.envelope == Failed(Thrown(NoLocationMessage)) && |run.trace| == 1
  {
  }

  datatype ImageReport = ImageReport(imagePath: string, imageUrl: string)

  /** What the world answers to `generateSwimlaneImage`: the steps of its download. */
  function GenerateImage(input: Option<Object>, w: DownloadWorld): (run: Run<ImageReport>)
    ensures WellFormed(run)
    ensures run.envelope.Failed? && run.envelope.fault.InvalidArguments? <==> ParseImage(input).Failure?
    ensures ParseImage(input).Success? ==>
      var p := ParseImage(input).value;
      |run.trace| >= 1 &&
      run.trace[0].effect == Post(ImageUrl, RequestBody(PrepareText(p.text, p.title), p.highResolution), ImageMaxRedirects)
    ensures run.envelope.Succeeded? <==> ParseImage(input).Success? && DownloadSucceeds(w)
    ensures run.envelope.Succeeded? ==>
      var p := ParseImage(input).value;
      run.envelope.value == ImageReport(ImagePathFor(p.outputPath, p.title), LinkOutcome(w.link).value) &&
      Written(run.trace) == [run.envelope.value.imagePath]
    ensures ParseImage(input).Success? && DownloadError(w).Some? ==>
      run.envelope == Failed(Thrown(DownloadError(w).value))
    ensures ParseImage(input).Success? ==>
      var p := ParseImage(input).value;
      Written(run.trace) == if ImageSaved(w) then [ImagePathFor(p.outputPath, p.title)] else []
  {
    match ParseImage(input)
    case Failure(issues) => Settle(issues)
    case Success(p) =>
      var download := DownloadImage(PrepareText(p.text, p.title), p.title, p.outputPath, p.highResolution, w);
      DownloadFailsAtFirstError(PrepareText(p.text, p.title), p.title, p.outputPath, p.highResolution, w);
      Finish(download, (d: Download) => ImageReport(d.imagePath, d.imageUrl))
  }

  /** What the world answers to `createSwimlaneDiagram`, step by step. */
  datatype CreateWorld = CreateWorld(link: LinkReply, download: DownloadWorld, mkdir: FsOutcome, write: FsOutcome)

  datatype DocReport = DocReport(
    markdownPath: string,
    diagramUrl: string,
    imagePath: Option<string>,
    imageUrl: Option<string>)

  /** Where the page is written: the given path, or the default one. */
  function MarkdownPathFor(p: CreateParams): (path: string)
    ensures Truthy(p.outputPath) ==> path == p.outputPath.value
    ensures !Truthy(p.outputPath) && !Truthy(p.folderStructure) ==>
      path == DiagramsDir + "/" + (Sanitize(p.title) + ".md")
    ensures !Truthy(p.outputPath) && Truthy(p.folderStructure) && IsPlainSegment(p.folderStructure.value) ==>
      path == DiagramsDir + "/" + p.folderStructure.value + "/" + (Sanitize(p.title) + ".md")
  {
    OrElse(p.outputPath, DefaultMarkdownPath(p.title, p.folderStructure))
  }

  /**
   * `createSwimlaneDiagram`: request the link, download the image when asked
   * to, then write the page. `timestamp` is the current time as an ISO-8601
   * string; its date ends the page.
   */
  function CreateDocumentation(input: Option<Object>, w: CreateWorld, timestamp: string): (run: Run<DocReport>)
    ensures WellFormed(run)
    ensures run.envelope.Failed? && run.envelope.fault.InvalidArguments? <==> ParseCreate(input).Failure?
    ensures ParseCreate(input).Success? ==>
      var p := ParseCreate(input).value;
      |run.trace| >= 1 &&
      run.trace[0].effect == Post(ImageLinkUrl, RequestBody(PrepareText(p.text, Some(p.title)), false), LinkMaxRedirects)
    ensures run.envelope.Succeeded? <==>
      ParseCreate(input).Success? && LinkOutcome(w.link).Success? &&
      (ParseCreate(input).value.includeImage ==> DownloadSucceeds(w.download)) &&
      w.mkdir.FsOk? && w.write.FsOk?
    ensures run.envelope.Succeeded? ==>
      var p := ParseCreate(input).value;
      var r := run.envelope.value;
      r.markdownPath == MarkdownPathFor(p) &&
      r.diagramUrl == LinkOutcome(w.link).value &&
      (r.imagePath.Some? <==> p.includeImage) &&
      (r.imageUrl.Some? <==> r.imagePath.Some?) &&
      (r.imageUrl.Some? ==> r.imageUrl.value == r.diagramUrl) &&
      (r.imagePath.Some? ==> r.imagePath.value == DefaultImagePath(Some(p.title))) &&
      Written(run.trace) == (if p.includeImage then [DefaultImagePath(Some(p.title))] else []) + [r.markdownPath]
    ensures ParseCreate(input).Success? && CreateError(ParseCreate(input).value, w).Some? ==>
      run.envelope == Failed(Thrown(CreateError(ParseCreate(input).value, w).value))
    ensures ParseCreate(input).Success? ==>
      var p := ParseCreate(input).value;
      Written(run.trace) ==
        (if LinkOutcome(w.link).Success? && p.includeImage && ImageSaved(w.download) then [DefaultImagePath(Some(p.title))] else []) +
        (if run.envelope.Succeeded? then [MarkdownPathFor(p)] else [])
  {
    match ParseCreate(input)
    case Failure(issues) => Settle(issues)
    case Success(p) =>
      DocumentFailsAtFirstError(p, w, timestamp);
      DocumentWrites(p, w, timestamp);
      Finish(Document(p, w, timestamp), (r: DocReport) => r)
  }

  /**
   * The message of the first failing step of `createSwimlaneDiagram` after
   * validation, in the order link, image download (when asked for), `mkdir`,
   * page write; `None` when every step succeeds.
   */
  function CreateError(p: CreateParams, w: CreateWorld): (e: Option<string>)
    ensures e.None? <==>
      LinkOutcome(w.link).Success? && (p.includeImage ==> DownloadSucceeds(w.download)) &&
      w.mkdir.FsOk? && w.write.FsOk?
    ensures LinkOutcome(w.link).Failure? ==> e == Some(LinkOutcome(w.link).error)
  {
    if LinkOutcome(w.link).Failure? then Some(LinkOutcome(w.link).error)
    else IllustrateError(p, w)
  }

  /** The same, for the steps after the link: image download (when asked for), `mkdir`, page write. */
  function IllustrateError(p: CreateParams, w: CreateWorld): (e: Option<string>)
    ensures e.None? <==> (p.includeImage ==> DownloadSucceeds(w.download)) && w.mkdir.FsOk? && w.write.FsOk?
    ensures p.includeImage && !DownloadSucceeds(w.download) ==> e == DownloadError(w.download)
  {
    if p.includeImage && DownloadError(w.download).Some? then DownloadError(w.download)
    else if w.mkdir.FsError? then Some(w.mkdir.message)
    else if w.write.FsError? then Some(w.write.message)
    else None
  }

  /** The steps of `createSwimlaneDiagram` after validation. */
  function Document(p: CreateParams, w: CreateWorld, timestamp: string): (a: Attempt<DocReport>)
    ensures Faithful(a)
    ensures |a.trace| >= 1
    ensures a.trace[0].effect == Post(ImageLinkUrl, RequestBody(PrepareText(p.text, Some(p.title)), false), LinkMaxRedirects)
    ensures a.result.Success? <==>
      LinkOutcome(w.link).Success? && (p.includeImage ==> DownloadSucceeds(w.download)) &&
      w.mkdir.FsOk? && w.write.FsOk?
    ensures a.result.Success? ==>
      a.result.value == Report(p, LinkOutcome(w.link).value) &&
      Written(a.trace) == (if p.includeImage then [DefaultImagePath(Some(p.title))] else []) + [MarkdownPathFor(p)]
  {
    var text := PrepareText(p.text, Some(p.title));
    var link := FetchLink(text, false, w.link);
    match link.result
    case Failure(message) => Attempt(Failure(message), link.trace)
    case Success(url) => Then(link.trace, Illustrate(p, text, url, w, timestamp))
  }

  /** A failed `Document` reports the error of its first failing step, starting with the link. */
  lemma DocumentFailsAtFirstError(p: CreateParams, w: CreateWorld, timestamp: string)
    ensures var a := Document(p, w, timestamp);
      a.result.Failure? ==> Some(a.result.error) == CreateError(p, w)
  {
    if LinkOutcome(w.link).Success? {
      IllustrateFailsAtFirstError(p, PrepareText(p.text, Some(p.title)), LinkOutcome(w.link).value, w, timestamp);
    }
  }

  /**
   * What `Document` wrote, failed or not: nothing when the link fails; else
   * the image once it was saved, and the page when the call succeeds.
   */
  lemma DocumentWrites(p: CreateParams, w: CreateWorld, timestamp: string)
    ensures var a := Document(p, w, timestamp);
      Written(a.trace) ==
        (if LinkOutcome(w.link).Success? && p.includeImage && ImageSaved(w.download) then [DefaultImagePath(Some(p.title))] else []) +
        (if a.result.Success? then [MarkdownPathFor(p)] else [])
  {
    var link := FetchLink(PrepareText(p.text, Some(p.title)), false, w.link);
    if link.result.Success? {
      IllustrateWrites(p, PrepareText(p.text, Some(p.title)), link.result.value, w, timestamp);
    } else {
      NoWritesWritten(link.trace);
      assert [] + [] == Written(link.trace);
    }
  }

  /** The answer of a successful create call with diagram URL `url`. */
  function Report(p: CreateParams, url: string): (r: DocReport)
    ensures r.markdownPath == MarkdownPathFor(p) && r.diagramUrl == url
    ensures r.imagePath.Some? <==> p.includeImage
    ensures r.imagePath.Some? ==> r.imagePath.value == DefaultImagePath(Some(p.title))
    ensures r.imageUrl.Some? <==> r.imagePath.Some?
    ensures r.imageUrl.Some? ==> r.imageUrl.value == url
  {
    var imagePath := if p.includeImage then Some(DefaultImagePath(Some(p.title))) else None;
    DocReport(MarkdownPathFor(p), url, imagePath, if Truthy(imagePath) then Some(url) else None)
  }

  /** Downloads the image when asked to, then writes the page. */
  function Illustrate(p: CreateParams, text: string, url: string, w: CreateWorld, timestamp: string): (a: Attempt<DocReport>)
    ensures Faithful(a)
    ensures a.result.Success? <==>
      (p.includeImage ==> DownloadSucceeds(w.download)) && w.mkdir.FsOk? && w.write.FsOk?
    ensures a.result.Success? ==>
      a.result.value == Report(p, url) &&
      Written(a.trace) == (if p.includeImage then [DefaultImagePath(Some(p.title))] else []) + [MarkdownPathFor(p)]
  {
    if !p.includeImage then
      var page := WritePage(p, text, url, None, w, timestamp);
      assert [] + [MarkdownPathFor(p)] == [MarkdownPathFor(p)];
      page
    else
      var d := DownloadImage(text, Some(p.title), None, false, w.download);
      match d.result
      case Failure(message) => Attempt(Failure(message), d.trace)
      case Success(image) => Then(d.trace, WritePage(p, text, url, Some(image.imagePath), w, timestamp))
  }

  /** A failed `Illustrate` reports the error of its first failing step. */
  lemma IllustrateFailsAtFirstError(p: CreateParams, text: string, url: string, w: CreateWorld, timestamp: string)
    ensures var a := Illustrate(p, text, url, w, timestamp);
      a.result.Failure? ==> Some(a.result.error) == IllustrateError(p, w)
  {
    if p.includeImage {
      DownloadFailsAtFirstError(text, Some(p.title), None, false, w.download);
    }
  }

  /**
   * What `Illustrate` wrote, failed or not: the image once it was saved, even
   * when the page write fails after it, and the page when the call succeeds.
   */
  lemma IllustrateWrites(p: CreateParams, text: string, url: string, w: CreateWorld, timestamp: string)
    ensures var a := Illustrate(p, text, url, w, timestamp);
      Written(a.trace) ==
        (if p.includeImage && ImageSaved(w.download) then [DefaultImagePath(Some(p.title))] else []) +
        (if a.result.Success? then [MarkdownPathFor(p)] else [])
  {
    if p.includeImage {
      var d := DownloadImage(text, Some(p.title), None, false, w.download);
      if d.result.Success? {
        var page := WritePage(p, text, url, Some(d.result.value.imagePath), w, timestamp);
        assert Written(d.trace) == [DefaultImagePath(Some(p.title))];
        assert Illustrate(p, text, url, w, timestamp) == Then(d.trace, page);
      }
    } else {
      var page := WritePage(p, text, url, None, w, timestamp);
      assert [] + Written(page.trace) == Written(page.trace);
    }
  }

  /** Writes the page, which embeds the image at `imagePath` when there is one. */
  function WritePage(p: CreateParams, text: string, url: string, imagePath: Option<string>,
                     w: CreateWorld, timestamp: string): (a: Attempt<DocReport>)
    ensures Faithful(a)
    ensures a.result.Success? <==> w.mkdir.FsOk? && w.write.FsOk?
    ensures w.mkdir.FsError? ==> a.result == Failure(w.mkdir.message)
    ensures w.mkdir.FsOk? && w.write.FsError? ==> a.result == Failure(w.write.message)
    ensures Written(a.trace) == if w.mkdir.FsOk? && w.write.FsOk? then [MarkdownPathFor(p)] else []
    ensures a.result.Success? ==>
      a.result.value == DocReport(MarkdownPathFor(p), url, imagePath, if Truthy(imagePath) then Some(url) else None)
    ensures |a.trace| >= 1 && a.trace[0].effect == MakeDirectory(Dirname(MarkdownPathFor(p)))
    ensures w.mkdir.FsOk? ==>
      |a.trace| == 2 &&
      a.trace[1].effect == WriteFile(MarkdownPathFor(p), Utf8(MarkdownContent(p.title, p.description, text, url, imagePath, DatePart(timestamp))))
  {
    var page := MarkdownContent(p.title, p.description, text, url, imagePath, DatePart(timestamp));
    var path := MarkdownPathFor(p);
    var saved := SaveFile(path, Utf8(page), w.mkdir, w.write);
    var report := DocReport(path, url, imagePath, if Truthy(imagePath) then Some(url) else None);
    match saved.result
    case Success(_) => Attempt(Success(report), saved.trace)
    case Failure(message) => Attempt(Failure(message), saved.trace)
  }

  /** Steps that all succeeded, followed by an attempt. */
  function Then<T>(first: seq<Step>, a: Attempt<T>): (r: Attempt<T>)
    requires AllOk(first)
    requires Faithful(a)
    ensures Faithful(r)
    ensures r.result == a.result
    ensures r.trace == first + a.trace
    ensures Written(r.trace) == Written(first) + Written(a.trace)
    ensures TouchesNoFiles(first) ==> Written(r.trace) == Written(a.trace)
  {
    AfterSuccess(first, a);
    WrittenConcat(first, a.trace);
    var r := Attempt(a.result, first + a.trace);
    if TouchesNoFiles(first) then WrittenAfterRequests(first, a.trace); r else r
  }

  // ---------------------------------------------------------------------
  // Short-circuiting

  /**
   * The create tool requests the link before anything else: when that fails,
   * the call fails with the link's error, no file is written and no other
   * step runs.
   */
  lemma CreateStopsAtLink(input: Option<Object>, w: CreateWorld, timestamp: string)
    requires ParseCreate(input).Success?
    requires LinkOutcome(w.link).Failure?
    ensures var run := CreateDocumentation(input, w, timestamp);
      run.envelope == Failed(Thrown(LinkOutcome(w.link).error)) &&
      |run.trace| == 1 && Written(run.trace) == []
  {
  }

  /**
   * End to end: documentation asked for with a text and a title and no image
   * requests the link with the titled text, then writes the page to
   * `docs/diagrams/<stem>.md` after creating `docs/diagrams`. The page is
   * built with no image section.
   */
  lemma CreateWithoutImage(input: Option<Object>, p: CreateParams, w: CreateWorld, timestamp: string)
    requires ParseCreate(input) == Success(p)
    requires p.description.None? && p.outputPath.None? && !p.includeImage && p.folderStructure.None?
    requires LinkOutcome(w.link).Success? && w.mkdir.FsOk? && w.write.FsOk?
    ensures var run := CreateDocumentation(input, w, timestamp);
      var url := LinkOutcome(w.link).value;
      var prepared := PrepareText(p.text, Some(p.title));
      var path := DiagramsDir + "/" + (Sanitize(p.title) + ".md");
      var page := MarkdownContent(p.title, None, prepared, url, None, DatePart(timestamp));
      run.envelope == Succeeded(DocReport(path, url, None, None)) &&
      run.trace == [
        Step(Post(ImageLinkUrl, RequestBody(prepared, false), LinkMaxRedirects), None),
        Step(MakeDirectory(DiagramsDir), None),
        Step(WriteFile(path, Utf8(page)), None)]
  {
    CreateRunWithoutImage(input, p, w, timestamp);
    DefaultPagePath(p);
  }

  /** With no output path and no folder, the page goes to `docs/diagrams/<stem>.md`. */
  lemma DefaultPagePath(p: CreateParams)
    requires p.outputPath.None? && p.folderStructure.None?
    ensures MarkdownPathFor(p) == DiagramsDir + "/" + (Sanitize(p.title) + ".md")
    ensures Dirname(MarkdownPathFor(p)) == DiagramsDir
  {
    var stem := Sanitize(p.title);
    FileNamePlain(stem, ".md");
    DiagramsDirectory(stem + ".md");
  }

  /** The steps of a create call that asks for no image and meets no failure. */
  lemma CreateRunWithoutImage(input: Option<Object>, p: CreateParams, w: CreateWorld, timestamp: string)
    requires ParseCreate(input) == Success(p) && !p.includeImage
    requires LinkOutcome(w.link).Success? && w.mkdir.FsOk? && w.write.FsOk?
    ensures var url := LinkOutcome(w.link).value;
      var prepared := PrepareText(p.text, Some(p.title));
      var path := MarkdownPathFor(p);
      var page := MarkdownContent(p.title, p.description, prepared, url, None, DatePart(timestamp));
      CreateDocumentation(input, w, timestamp) == Run(
        Succeeded(DocReport(path, url, None, None)),
        [Step(Post(ImageLinkUrl, RequestBody(prepared, false), LinkMaxRedirects), None),
         Step(MakeDirectory(Dirname(path)), None),
         Step(WriteFile(path, Utf8(page)), None)])
  {
    var url := LinkOutcome(w.link).value;
    var text := PrepareText(p.text, Some(p.title));
    var request := Step(Post(ImageLinkUrl, RequestBody(text, false), LinkMaxRedirects), None);
    var link := FetchLink(text, false, w.link);
    assert link == Attempt(Success(url), [request]);
    PageSteps(p, text, url, None, w, timestamp);
    var page := WritePage(p, text, url, None, w, timestamp);
    assert Illustrate(p, text, url, w, timestamp) == Attempt(Success(Report(p, url)), page.trace);
    assert Document(p, w, timestamp) == Attempt(Success(Report(p, url)), [request] + page.trace);
    assert [request] + page.trace == [request, page.trace[0], page.trace[1]];
  }

  /**
   * The steps of a create call that asks for the image and meets no failure:
   * the link request, the four steps of the download, then the page, which
   * embeds the image saved at the default image path.
   */
  lemma CreateRunWithImage(input: Option<Object>, p: CreateParams, w: CreateWorld, timestamp: string)
    requires ParseCreate(input) == Success(p) && p.includeImage
    requires LinkOutcome(w.link).Success? && DownloadSucceeds(w.download) && w.mkdir.FsOk? && w.write.FsOk?
    ensures var url := LinkOutcome(w.link).value;
      var prepared := PrepareText(p.text, Some(p.title));
      var image := DefaultImagePath(Some(p.title));
      var path := MarkdownPathFor(p);
      var page := MarkdownContent(p.title, p.description, prepared, url, Some(image), DatePart(timestamp));
      var request := Step(Post(ImageLinkUrl, RequestBody(prepared, false), LinkMaxRedirects), None);
      CreateDocumentation(input, w, timestamp) == Run(
        Succeeded(DocReport(path, url, Some(image), Some(url))),
        [request,
         Step(Post(ImageUrl, RequestBody(prepared, false), ImageMaxRedirects), None),
         Step(MakeDirectory(Dirname(image)), None),
         Step(WriteFile(image, Bytes(ImageOutcome(w.download.image).value)), None),
         request,
         Step(MakeDirectory(Dirname(path)), None),
         Step(WriteFile(path, Utf8(page)), None)])
  {
    var url := LinkOutcome(w.link).value;
    var text := PrepareText(p.text, Some(p.title));
    var image := DefaultImagePath(Some(p.title));
    var request := Step(Post(ImageLinkUrl, RequestBody(text, false), LinkMaxRedirects), None);
    var link := FetchLink(text, false, w.link);
    assert link == Attempt(Success(url), [request]);
    DownloadSteps(text, p.title, w.download);
    var download := DownloadImage(text, Some(p.title), None, false, w.download).trace;
    PageSteps(p, text, url, Some(image), w, timestamp);
    var page := WritePage(p, text, url, Some(image), w, timestamp).trace;
    assert Illustrate(p, text, url, w, timestamp) == Attempt(Success(Report(p, url)), download + page);
    assert Document(p, w, timestamp) == Attempt(Success(Report(p, url)), [request] + (download + page));
    Regroup(request, download, page);
  }

  /** One step, then four, then two: seven steps in a row. */
  lemma Regroup<T>(first: T, four: seq<T>, two: seq<T>)
    requires |four| == 4 && |two| == 2
    ensures [first] + (four + two) == [first, four[0], four[1], four[2], four[3], two[0], two[1]]
  {
  }

  /** A download that succeeds to the default image path takes exactly these four steps. */
  lemma DownloadSteps(text: string, title: string, w: DownloadWorld)
    requires DownloadSucceeds(w)
    ensures var image := DefaultImagePath(Some(title));
      DownloadImage(text, Some(title), None, false, w) == Attempt(
        Success(Download(image, LinkOutcome(w.link).value)),
        [Step(Post(ImageUrl, RequestBody(text, false), ImageMaxRedirects), None),
         Step(MakeDirectory(Dirname(image)), None),
         Step(WriteFile(image, Bytes(ImageOutcome(w.image).value)), None),
         Step(Post(ImageLinkUrl, RequestBody(text, false), LinkMaxRedirects), None)])
  {
    var a := DownloadImage(text, Some(title), None, false, w);
    DownloadSavesThenLinks(text, Some(title), None, false, w);
    assert a.trace[3].error.None?;
    Listed(a.trace);
  }

  /** A four-element sequence is the display of its elements. */
  lemma Listed<T>(s: seq<T>)
    requires |s| == 4
    ensures s == [s[0], s[1], s[2], s[3]]
  {
  }

  /** A page write that succeeds takes exactly two steps: `mkdir`, then the write of the page. */
  lemma PageSteps(p: CreateParams, text: string, url: string, imagePath: Option<string>, w: CreateWorld, timestamp: string)
    requires w.mkdir.FsOk? && w.write.FsOk?
    ensures var path := MarkdownPathFor(p);
      WritePage(p, text, url, imagePath, w, timestamp).trace == [
        Step(MakeDirectory(Dirname(path)), None),
        Step(WriteFile(path, Utf8(MarkdownContent(p.title, p.description, text, url, imagePath, DatePart(timestamp)))), None)]
  {
    var a := WritePage(p, text, url, imagePath, w, timestamp);
    assert a.trace[0].error.None? && a.trace[1].error.None?;
  }

  lemma DiagramsDirectory(file: string)
    requires IsPlainSegment(file)
    ensures Dirname(DiagramsDir + "/" + file) == DiagramsDir
  {
    SegmentsPlain();
    assert DiagramsDir[|DiagramsDir| - 1] == Diagrams[|Diagrams| - 1];
    DirnameOfChild(DiagramsDir, file);
  }

  // ---------------------------------------------------------------------
  // The answer objects

  /**
   * The `error` field of a failed call: the thrown error's message, or the
   * validator's rendering of the issues it found.
   */
  function FaultMessage(fault: Fault, describe: seq<Issue> -> string): string {
    match fault
    case Thrown(message) => message
    case InvalidArguments(issues) => describe(issues)
  }

  /** `{ success: false, error }`. */
  function FailureAnswer(fault: Fault, describe: seq<Issue> -> string): (o: Object)
    ensures o.Keys == {"success", "error"}
    ensures o["success"] == JBool(false)
    ensures fault.Thrown? ==> o["error"] == JString(fault.message)
  {
    map["success" := JBool(false), "error" := JString(FaultMessage(fault, describe))]
  }

  /** A field that is present only when the value is defined, as `JSON.stringify` drops `undefined`. */
  function PutOptional(o: Object, key: string, v: Option<string>): (r: Object)
    ensures key in r <==> v.Some? || key in o
    ensures v.Some? ==> r[key] == JString(v.value)
    ensures forall k :: k != key ==> (k in r <==> k in o) && (k in o ==> r[k] == o[k])
  {
    if v.Some? then o[key := JString(v.value)] else o
  }

  /** The answer of `getSwimlaneImageLink`. */
  function LinkAnswer(env: Envelope<string>, describe: seq<Issue> -> string): (o: Object)
    ensures "success" in o && o["success"] == JBool(env.Succeeded?)
    ensures env.Succeeded? ==> o.Keys == {"success", "imageUrl"} && o["imageUrl"] == JString(env.value)
    ensures env.Failed? ==> o.Keys == {"success", "error"}
    ensures env.Failed? && env.fault.Thrown? ==> o["error"] == JString(env.fault.message)
  {
    match env
    case Succeeded(url) => map["success" := JBool(true), "imageUrl" := JString(url)]
    case Failed(fault) => FailureAnswer(fault, describe)
  }

  /** The answer of `generateSwimlaneImage`. */
  function ImageAnswer(env: Envelope<ImageReport>, describe: seq<Issue> -> string): (o: Object)
    ensures "success" in o && o["success"] == JBool(env.Succeeded?)
    ensures env.Succeeded? ==>
      o.Keys == {"success", "imagePath", "imageUrl"} &&
      o["imagePath"] == JString(env.value.imagePath) && o["imageUrl"] == JString(env.value.imageUrl)
    ensures env.Failed? ==> o.Keys == {"success", "error"}
    ensures env.Failed? && env.fault.Thrown? ==> o["error"] == JString(env.fault.message)
  {
    match env
    case Succeeded(r) =>
      map["success" := JBool(true), "imagePath" := JString(r.imagePath), "imageUrl" := JString(r.imageUrl)]
    case Failed(fault) => FailureAnswer(fault, describe)
  }

  /** The answer of `createSwimlaneDiagram`: the image fields appear only when defined. */
  function DocAnswer(env: Envelope<DocReport>, describe: seq<Issue> -> string): (o: Object)
    ensures "success" in o && o["success"] == JBool(env.Succeeded?)
    ensures env.Succeeded? ==>
      "markdownPath" in o && "diagramUrl" in o &&
      o["markdownPath"] == JString(env.value.markdownPath) && o["diagramUrl"] == JString(env.value.diagramUrl) &&
      ("imagePath" in o <==> env.value.imagePath.Some?) && ("imageUrl" in o <==> env.value.imageUrl.Some?) &&
      (env.value.imagePath.Some? ==> o["imagePath"] == JString(env.value.imagePath.value)) &&
      (env.value.imageUrl.Some? ==> o["imageUrl"] == JString(env.value.imageUrl.value)) &&
      o.Keys <= {"success", "markdownPath", "diagramUrl", "imagePath", "imageUrl"}
    ensures env.Failed? ==> o.Keys == {"success", "error"}
    ensures env.Failed? && env.fault.Thrown? ==> o["error"] == JString(env.fault.message)
  {
    match env
    case Succeeded(r) =>
      var base := map["success" := JBool(true), "markdownPath" := JString(r.markdownPath), "diagramUrl" := JString(r.diagramUrl)];
      PutOptional(PutOptional(base, "imagePath", r.imagePath), "imageUrl", r.imageUrl)
    case Failed(fault) => FailureAnswer(fault, describe)
  }

  /**
   * In a successful create answer, `imagePath` and `imageUrl` are both
   * present, exactly when an image was asked for, and the image URL is the
   * diagram URL.
   */
  lemma CreateAnswerImageFields(input: Option<Object>, w: CreateWorld, timestamp: string,
                                describe: seq<Issue> -> string)
    requires CreateDocumentation(input, w, timestamp).envelope.Succeeded?
    ensures var o := DocAnswer(CreateDocumentation(input, w, timestamp).envelope, describe);
      ParseCreate(input).Success? &&
      ("imagePath" in o <==> ParseCreate(input).value.includeImage) &&
      ("imageUrl" in o <==> "imagePath" in o) &&
      ("imageUrl" in o ==> o["imageUrl"] == o["diagramUrl"])
  {
  }
}

=== FILE: json.dfy ===
/**
 * The JSON values a tool call's arguments can hold. Only the kind of a
 * nested array or object matters to the schemas, so those carry no contents;
 * numbers carry no value for the same reason.
 */
module Json {

  datatype Json = JNull | JBool(b: bool) | JNumber | JString(s: string) | JArray | JObject

  /** A JSON object with string keys, as an argument record or a request body. */
  type Object = map<string, Json>

  /** The name zod gives the type it received when a value has the wrong type. */
  function TypeName(v: Json): string {
    match v
    case JNull => "null"
    case JBool(_) => "boolean"
    case JNumber => "number"
    case JString(_) => "string"
    case JArray => "array"
    case JObject => "object"
  }
}

=== FILE: markdown.dfy ===
/**
 * `generateMarkdownContent`: the documentation page written by the create
 * tool. The page is a fixed sequence of sections: the heading, an optional
 * italic description, a fixed overview, the fenced diagram source, an
 * optional embedded image, the links, and the generation-date footer.
 */
module Markdown {
  import opened Wrappers
  import opened Strings
  import opened Paths

  const Overview := "## Overview\n\nThis diagram was automatically generated from the codebase analysis.\n\n"
  const SourceHeading := "## Diagram Source\n\n"
  const FenceOpen := "```swimlanes\n"
  const FenceClose := "\n```\n\n"
  const FigureHeading := "## Diagram\n\n"
  const LinksHeading := "## Links\n\n"
  const SiteLink := "- [Swimlanes.io](https://swimlanes.io/)\n\n"

  /** `s` occurs somewhere inside `text`. */
  predicate Contains(text: string, s: string) {
    exists i :: 0 <= i <= |text| && StartsWith(text[i..], s)
  }

  lemma ContainsSelf(s: string)
    ensures Contains(s, s)
  {
    assert s[0..] == s;
  }

  /** What a string contains, it still contains with anything appended. */
  lemma ContainsLeft(a: string, b: string, s: string)
    requires Contains(a, s)
    ensures Contains(a + b, s)
  {
    var i :| 0 <= i <= |a| && StartsWith(a[i..], s);
    assert (a + b)[i..][..|s|] == a[i..][..|s|];
  }

  /** What a string contains, it still contains with anything prepended. */
  lemma ContainsRight(a: string, b: string, s: string)
    requires Contains(b, s)
    ensures Contains(a + b, s)
  {
    var i :| 0 <= i <= |b| && StartsWith(b[i..], s);
    assert (a + b)[|a| + i..] == b[i..];
  }

  // ---------------------------------------------------------------------
  // The image reference

  /**
   * How the page refers to the image: a path already starting with `./` is
   * kept; any other path becomes `./` followed by its last two `/`-separated
   * segments (the whole path when it has fewer).
   */
  function ImageReference(imagePath: string): (ref: string)
    ensures StartsWith(ref, "./")
    ensures StartsWith(imagePath, "./") ==> ref == imagePath
    ensures !StartsWith(imagePath, "./") ==>
      var tail := ref[2..];
      var n := |Split(imagePath, '/')|;
      EndsWith(imagePath, tail) &&
      Split(tail, '/') == Split(imagePath, '/')[if n < 2 then 0 else n - 2..]
  {
    if StartsWith(imagePath, "./") then imagePath
    else
      var parts := Split(imagePath, '/');
      var k := if |parts| < 2 then 0 else |parts| - 2;
      var tail := Join(parts[k..], '/');
      TailOfPath(imagePath, k, tail);
      "./" + tail
  }

  lemma TailOfPath(imagePath: string, k: nat, tail: string)
    requires var n := |Split(imagePath, '/')|; k == if n < 2 then 0 else n - 2
    requires tail == Join(Split(imagePath, '/')[k..], '/')
    ensures EndsWith(imagePath, tail)
    ensures Split(tail, '/') == Split(imagePath, '/')[k..]
  {
    var parts := Split(imagePath, '/');
    JoinOfSplitSuffix(imagePath, '/', k);
    assert forall i :: 0 <= i < |parts[k..]| ==> '/' !in parts[k..][i];
    SplitJoin(parts[k..], '/');
  }

  /**
   * A path `dirs/d/f` whose last two segments are `d` and `f` is referred to
   * as `./d/f`; this is the reference to an image at its default location.
   */
  lemma ImageReferenceOfNested(dirs: string, d: string, f: string)
    requires dirs != [] && dirs[0] != '.'
    requires '/' !in d && '/' !in f
    ensures ImageReference(dirs + "/" + (d + "/" + f)) == "./" + (d + "/" + f)
  {
    var rest := d + "/" + f;
    var p := dirs + "/" + rest;
    assert p[0] == dirs[0];
    assert !StartsWith(p, "./");
    SplitAtSlash(dirs, rest);
    TwoSegments(d, f);
    var parts := Split(p, '/');
    assert parts[|parts| - 2..] == [d, f];
    assert [d, f][1..] == [f];
    assert Join([d, f], '/') == d + "/" + f;
  }

  lemma SplitAtSlash(a: string, b: string)
    ensures Split(a + "/" + b, '/') == Split(a, '/') + Split(b, '/')
  {
    assert a + "/" + b == a + ['/'] + b;
    SplitConcat(a, b, '/');
  }

  lemma TwoSegments(d: string, f: string)
    requires '/' !in d && '/' !in f
    ensures Split(d + "/" + f, '/') == [d, f]
  {
    assert d + "/" + f == d + ['/'] + f;
    SplitConcat(d, f, '/');
    SplitPlain(d, '/');
    SplitPlain(f, '/');
  }

  // ---------------------------------------------------------------------
  // The page

  /** The sections of a page, in the order they are written. */
  datatype Sections = Sections(
    heading: string,
    description: string,
    overview: string,
    source: string,
    figure: string,
    links: string,
    footer: string)

  function Render(p: Sections): string {
    p.heading + p.description + p.overview + p.source + p.figure + p.links + p.footer
  }

  function Heading(title: string): string {
    "# " + title + "\n\n"
  }

  function DescriptionBlock(description: Option<string>): string {
    if Truthy(description) then Emphasis(description.value) else ""
  }

  /** The italic paragraph holding a description. */
  function Emphasis(description: string): string {
    "*" + description + "*\n\n"
  }

  /** The diagram source inside a `swimlanes` code fence. */
  function Fenced(source: string): string {
    FenceOpen + source + FenceClose
  }

  /** The `## Diagram` section embedding the image under the title as alt text. */
  function Figure(title: string, imagePath: string): string {
    FigureHeading + "![" + title + "](" + ImageReference(imagePath) + ")\n\n"
  }

  function FigureBlock(title: string, imagePath: Option<string>): string {
    if Truthy(imagePath) then Figure(title, imagePath.value) else ""
  }

  function LinkLine(diagramUrl: string): string {
    "- [Interactive Diagram](" + diagramUrl + ")\n"
  }

  function Footer(date: string): string {
    "---\n\n*Generated on " + date + " using Swimlanes MCP Server*\n"
  }

  /** The calendar-date part of an ISO-8601 timestamp: everything before the first `T`. */
  function DatePart(timestamp: string): (date: string)
    ensures StartsWith(timestamp, date)
    ensures 'T' !in date
  {
    JoinSplit(timestamp, 'T');
    JoinStartsWithFirst(Split(timestamp, 'T'), 'T');
    Split(timestamp, 'T')[0]
  }

  function PageSections(title: string, description: Option<string>, source: string,
                        diagramUrl: string, imagePath: Option<string>, date: string): Sections {
    Sections(
      Heading(title),
      DescriptionBlock(description),
      Overview,
      SourceHeading + Fenced(source),
      FigureBlock(title, imagePath),
      LinksHeading + LinkLine(diagramUrl) + SiteLink,
      Footer(date))
  }

  /** The page for a diagram; `date` is the generation date that ends it. */
  function MarkdownContent(title: string, description: Option<string>, source: string,
                           diagramUrl: string, imagePath: Option<string>, date: string): string {
    Render(PageSections(title, description, source, diagramUrl, imagePath, date))
  }

  /**
   * Whatever the optional parts, the page starts with the title heading,
   * ends with the date footer, and holds the fixed overview, the fenced
   * diagram source and the link to the interactive diagram.
   */
  lemma PageFrame(title: string, description: Option<string>, source: string,
                  diagramUrl: string, imagePath: Option<string>, date: string)
    ensures var page := MarkdownContent(title, description, source, diagramUrl, imagePath, date);
      StartsWith(page, Heading(title)) && EndsWith(page, Footer(date)) &&
      Contains(page, Overview) && Contains(page, Fenced(source)) && Contains(page, LinkLine(diagramUrl))
  {
    var p := PageSections(title, description, source, diagramUrl, imagePath, date);
    Layout(p.heading, p.description, p.overview, SourceHeading, Fenced(source), p.figure,
           LinksHeading, LinkLine(diagramUrl), SiteLink, p.footer);
  }

  /** Where each fixed part of the page sits, whatever the parts are. */
  lemma Layout(h: string, d: string, o: string, sh: string, fenced: string, f: string,
               lh: string, link: string, site: string, ft: string)
    ensures var page := Render(Sections(h, d, o, sh + fenced, f, lh + link + site, ft));
      StartsWith(page, h) && EndsWith(page, ft) &&
      Contains(page, o) && Contains(page, fenced) && Contains(page, link)
  {
    var source := sh + fenced;
    var links := lh + link + site;
    var page := h + d + o + source + f + links + ft;
    assert page[..|h|] == h;
    assert page[|page| - |ft|..] == ft;
    ContainsSelf(o);
    ContainsRight(h + d, o, o);
    ContainsLeft(h + d + o, source, o);
    ContainsSelf(fenced);
    ContainsRight(sh, fenced, fenced);
    ContainsRight(h + d + o, source, fenced);
    ContainsTail(h + d + o + source, f, links, ft, o);
    ContainsTail(h + d + o + source, f, links, ft, fenced);
    ContainsSelf(link);
    ContainsRight(lh, link, link);
    ContainsLeft(lh + link, site, link);
    ContainsRight(h + d + o + source + f, links, link);
    ContainsLeft(h + d + o + source + f + links, ft, link);
  }

  lemma ContainsTail(a: string, f: string, links: string, ft: string, s: string)
    requires Contains(a, s)
    ensures Contains(a + f + links + ft, s)
  {
    ContainsLeft(a, f, s);
    ContainsLeft(a + f, links, s);
    ContainsLeft(a + f + links, ft, s);
  }


  // ---------------------------------------------------------------------
  // How the optional parts change the page

  /** A description or an image path that is absent or empty leaves the page as if absent. */
  lemma EmptyIsAbsent(title: string, source: string, diagramUrl: string, date: string,
                      description: Option<string>, imagePath: Option<string>)
    requires !Truthy(description) && !Truthy(imagePath)
    ensures MarkdownContent(title, description, source, diagramUrl, imagePath, date)
         == MarkdownContent(title, None, source, diagramUrl, None, date)
  {
  }

  /**
   * A non-empty description adds exactly one paragraph, `*description*`,
   * right after the heading; the rest of the page is unchanged.
   */
  lemma DescriptionParagraph(title: string, description: string, source: string,
                             diagramUrl: string, imagePath: Option<string>, date: string)
    requires description != ""
    ensures var plain := MarkdownContent(title, None, source, diagramUrl, imagePath, date);
      var h := Heading(title);
      |h| <= |plain| &&
      MarkdownContent(title, Some(description), source, diagramUrl, imagePath, date)
        == h + Emphasis(description) + plain[|h|..]
  {
    var q := PageSections(title, None, source, diagramUrl, imagePath, date);
    assert PageSections(title, Some(description), source, diagramUrl, imagePath, date)
        == q.(description := Emphasis(description));
    InsertAfterHeading(q, Emphasis(description));
  }

  lemma InsertAfterHeading(q: Sections, x: string)
    requires q.description == ""
    ensures |q.heading| <= |Render(q)|
    ensures Render(q.(description := x)) == q.heading + x + Render(q)[|q.heading|..]
  {
    var rest := q.overview + q.source + q.figure + q.links + q.footer;
    assert Render(q) == q.heading + rest;
    assert Render(q)[|q.heading|..] == rest;
  }

  /** The end of every page: the links section and the footer. */
  function Closing(diagramUrl: string, date: string): string {
    LinksHeading + LinkLine(diagramUrl) + SiteLink + Footer(date)
  }

  /**
   * A non-empty image path adds exactly one section, `## Diagram` with the
   * image, just before the links section; the rest of the page is unchanged.
   */
  lemma FigureSection(title: string, description: Option<string>, source: string,
                      diagramUrl: string, imagePath: string, date: string)
    requires imagePath != ""
    ensures var plain := MarkdownContent(title, description, source, diagramUrl, None, date);
      var closing := Closing(diagramUrl, date);
      |closing| <= |plain| &&
      var body := plain[..|plain| - |closing|];
      plain == body + closing &&
      MarkdownContent(title, description, source, diagramUrl, Some(imagePath), date)
        == body + Figure(title, imagePath) + closing
  {
    var q := PageSections(title, description, source, diagramUrl, None, date);
    var x := Figure(title, imagePath);
    FigureSections(title, description, source, diagramUrl, imagePath, date, q, x);
    assert q.links + q.footer == Closing(diagramUrl, date);
    InsertBeforeLinks(q, x,
      MarkdownContent(title, description, source, diagramUrl, None, date),
      MarkdownContent(title, description, source, diagramUrl, Some(imagePath), date));
  }

  lemma FigureSections(title: string, description: Option<string>, source: string,
                       diagramUrl: string, imagePath: string, date: string, q: Sections, x: string)
    requires imagePath != ""
    requires q == PageSections(title, description, source, diagramUrl, None, date)
    requires x == Figure(title, imagePath)
    ensures q.figure == ""
    ensures MarkdownContent(title, description, source, diagramUrl, None, date) == Render(q)
    ensures MarkdownContent(title, description, source, diagramUrl, Some(imagePath), date) == Render(q.(figure := x))
  {
    assert PageSections(title, description, source, diagramUrl, Some(imagePath), date) == q.(figure := x);
  }

  lemma InsertBeforeLinks(q: Sections, x: string, plain: string, withFigure: string)
    requires q.figure == ""
    requires plain == Render(q) && withFigure == Render(q.(figure := x))
    ensures var closing := q.links + q.footer;
      |closing| <= |plain| &&
      var body := plain[..|plain| - |closing|];
      plain == body + closing && withFigure == body + x + closing
  {
    var before := q.heading + q.description + q.overview + q.source;
    var after := q.links + q.footer;
    assert plain == before + after;
    assert plain[..|before|] == before;
  }

  /** The date of a timestamp `date` + `T` + `time` is `date`. */
  lemma DatePartOf(date: string, time: string)
    requires 'T' !in date
    ensures DatePart(date + "T" + time) == date
  {
    SplitAfterPlain(date, time, 'T');
    assert date + "T" + time == date + ['T'] + time;
  }
}

=== FILE: naming.dfy ===
/**
 * Default file locations: a title is turned into a file-name stem by
 * lower-casing it, replacing every run of characters outside `[a-z0-9]` by
 * one `-`, and removing one leading and one trailing `-`. Markdown files go
 * under `docs/diagrams/[<folder>/]`, images under `docs/diagrams/images/`.
 */
module Naming {
  import opened Wrappers
  import opened Strings
  import opened Paths

  predicate IsSlugChar(c: char) {
    'a' <= c <= 'z' || '0' <= c <= '9'
  }

  /** Only `[a-z0-9-]`, and no two `-` in a row. */
  predicate Collapsed(s: string) {
    && (forall i :: 0 <= i < |s| ==> IsSlugChar(s[i]) || s[i] == '-')
    && (forall i :: 0 <= i < |s| - 1 && s[i] == '-' ==> s[i + 1] != '-')
  }

  /** A valid file-name stem: collapsed, and neither starting nor ending with `-`. */
  predicate IsSlug(s: string) {
    Collapsed(s) && (s != [] ==> s[0] != '-' && s[|s| - 1] != '-')
  }

  /** The characters of `s` in `[a-z0-9]`, in order. */
  function SlugChars(s: string): string {
    if s == [] then []
    else if IsSlugChar(s[0]) then [s[0]] + SlugChars(s[1..])
    else SlugChars(s[1..])
  }

  /** `s` without its leading run of characters outside `[a-z0-9]`. */
  function SkipRun(s: string): (r: string)
    ensures |r| <= |s| && r == s[|s| - |r|..]
    ensures r != [] ==> IsSlugChar(r[0])
  {
    if s == [] || IsSlugChar(s[0]) then s else SkipRun(s[1..])
  }

  /** A skipped run holds no letter or digit. */
  lemma {:induction false} SkipRunSlugChars(s: string)
    ensures SlugChars(SkipRun(s)) == SlugChars(s)
  {
    if s != [] && !IsSlugChar(s[0]) {
      SkipRunSlugChars(s[1..]);
    }
  }

  /** `s.replace(/[^a-z0-9]+/g, '-')`. */
  function CollapseRuns(s: string): (r: string)
    ensures r != [] <==> s != []
    ensures r != [] ==> (r[0] == '-' <==> !IsSlugChar(s[0]))
    decreases |s|
  {
    if s == [] then []
    else if IsSlugChar(s[0]) then [s[0]] + CollapseRuns(s[1..])
    else "-" + CollapseRuns(SkipRun(s[1..]))
  }

  /** Collapsing leaves only `[a-z0-9-]`, no `--`, and the letters and digits in order. */
  lemma {:induction false} CollapseRunsSound(s: string)
    ensures Collapsed(CollapseRuns(s))
    ensures SlugChars(CollapseRuns(s)) == SlugChars(s)
    decreases |s|
  {
    if s != [] {
      if IsSlugChar(s[0]) {
        CollapseRunsSound(s[1..]);
      } else {
        CollapseRunsSound(SkipRun(s[1..]));
        SkipRunSlugChars(s[1..]);
      }
    }
  }

  /** `s.replace(/^-|-$/g, '')`: one leading and one trailing `-` removed. */
  function TrimHyphen(s: string): string {
    var a := if s != [] && s[0] == '-' then s[1..] else s;
    if a != [] && a[|a| - 1] == '-' then a[..|a| - 1] else a
  }

  /** The file-name stem for a title. */
  function Sanitize(title: string): (stem: string)
    ensures IsSlug(stem)
    ensures SlugChars(stem) == SlugChars(Lower(title))
  {
    var c := CollapseRuns(Lower(title));
    CollapseRunsSound(Lower(title));
    TrimHyphenSlug(c);
    TrimHyphen(c)
  }

  /**
   * The stem is the words of the lower-cased title, the maximal runs of
   * `[a-z0-9]`, joined by `-`: each run of other characters between two
   * words becomes exactly one `-`, and runs at either end disappear.
   */
  lemma SanitizeWords(title: string)
    ensures Sanitize(title) == Join(Words(Lower(title)), '-')
  {
    TrimCollapsedWords(Lower(title));
  }

  // ---------------------------------------------------------------------
  // Words

  /** A non-empty run of letters and digits. */
  predicate IsWord(w: string) {
    w != [] && forall i :: 0 <= i < |w| ==> IsSlugChar(w[i])
  }

  /** The longest prefix of `s` made of letters and digits. */
  function LeadingWord(s: string): (w: string)
    ensures |w| <= |s| && w == s[..|w|]
    ensures forall i :: 0 <= i < |w| ==> IsSlugChar(w[i])
    ensures |w| < |s| ==> !IsSlugChar(s[|w|])
  {
    if s == [] || !IsSlugChar(s[0]) then [] else [s[0]] + LeadingWord(s[1..])
  }

  /** The maximal runs of letters and digits in `s`, in order. */
  function Words(s: string): (words: seq<string>)
    ensures forall i :: 0 <= i < |words| ==> IsWord(words[i])
    decreases |s|
  {
    var t := SkipRun(s);
    if t == [] then []
    else
      var w := LeadingWord(t);
      assert |w| >= 1;
      var rest := Words(t[|w|..]);
      assert IsWord(w);
      [w] + rest
  }

  /** Skipping a run twice skips nothing more, so a string has the words of what follows its leading run. */
  lemma SkipRunWords(s: string)
    ensures SkipRun(SkipRun(s)) == SkipRun(s)
    ensures Words(SkipRun(s)) == Words(s)
  {
  }

  /** A string whose run covers all of it ends with a character outside `[a-z0-9]`. */
  lemma {:induction false} SkipRunToEnd(s: string)
    requires s != [] && SkipRun(s) == []
    ensures !IsSlugChar(s[|s| - 1])
  {
    if s[1..] != [] {
      SkipRunToEnd(s[1..]);
    }
  }

  /**
   * From a letter or digit on, collapsing yields the words joined by `-`,
   * followed by one `-` when the string ends with a run of other characters.
   */
  lemma {:induction false} CollapseFromWord(t: string)
    requires t != [] && IsSlugChar(t[0])
    ensures Words(t) != []
    ensures CollapseRuns(t) == Join(Words(t), '-') + Trail(t)
    decreases |t|
  {
    var w := LeadingWord(t);
    var rest := t[|w|..];
    assert |rest| < |t| by {
      FirstWord(t);
    }
    if rest == [] {
      OneWord(t);
    } else if SkipRun(rest) == [] {
      OneWordThenRun(t);
    } else {
      CollapseFromWord(SkipRun(rest));
      MoreWords(t);
    }
  }

  /** The `-` a trailing run of other characters leaves after collapsing, if any. */
  function Trail(t: string): (r: string)
    requires t != []
    ensures r == [] || r == ['-']
  {
    if IsSlugChar(t[|t| - 1]) then [] else ['-']
  }

  /** A string that is one word. */
  lemma OneWord(t: string)
    requires t != [] && IsSlugChar(t[0]) && t[|LeadingWord(t)|..] == []
    ensures Words(t) != []
    ensures CollapseRuns(t) == Join(Words(t), '-') + Trail(t)
  {
    var w := LeadingWord(t);
    FirstWord(t);
    assert Join([w], '-') == w;
    assert CollapseRuns([]) == [];
    assert w + [] == w;
  }

  /** A string that is one word followed by one run of other characters. */
  lemma OneWordThenRun(t: string)
    requires t != [] && IsSlugChar(t[0])
    requires var rest := t[|LeadingWord(t)|..]; rest != [] && SkipRun(rest) == []
    ensures Words(t) != []
    ensures CollapseRuns(t) == Join(Words(t), '-') + Trail(t)
  {
    var w := LeadingWord(t);
    var rest := t[|w|..];
    FirstWord(t);
    WordThenRun(w, rest);
  }

  /** A string that is one word, a run of other characters, and more words. */
  lemma MoreWords(t: string)
    requires t != [] && IsSlugChar(t[0])
    requires var rest := t[|LeadingWord(t)|..]; rest != [] && SkipRun(rest) != []
    requires var u := SkipRun(t[|LeadingWord(t)|..]);
      Words(u) != [] &&
      CollapseRuns(u) == Join(Words(u), '-') + Trail(u)
    ensures Words(t) != []
    ensures CollapseRuns(t) == Join(Words(t), '-') + Trail(t)
  {
    var w := LeadingWord(t);
    var u := SkipRun(t[|w|..]);
    MoreWordsJoin(t);
    MoreWordsCollapse(t);
    MoreWordsTrail(t);
    Stitch(CollapseRuns(t), CollapseRuns(u), w, Join(Words(t), '-'), Join(Words(u), '-'), Trail(t));
  }

  /** The words of a word, a run and more: that word, then the words after the run. */
  lemma MoreWordsJoin(t: string)
    requires t != [] && IsSlugChar(t[0])
    requires var rest := t[|LeadingWord(t)|..]; rest != [] && SkipRun(rest) != []
    requires Words(SkipRun(t[|LeadingWord(t)|..])) != []
    ensures var w := LeadingWord(t); var u := SkipRun(t[|w|..]);
      Words(t) == [w] + Words(u) &&
      Join(Words(t), '-') == w + ['-'] + Join(Words(u), '-')
  {
    var w := LeadingWord(t);
    var rest := t[|w|..];
    FirstWord(t);
    SkipRunWords(rest);
    JoinAfterWord(w, Words(SkipRun(rest)));
  }

  /** Collapsing a word, a run and more: the word, one `-`, then the rest collapsed; it ends where the rest ends. */
  lemma MoreWordsCollapse(t: string)
    requires t != [] && IsSlugChar(t[0])
    requires var rest := t[|LeadingWord(t)|..]; rest != [] && SkipRun(rest) != []
    ensures var w := LeadingWord(t); var u := SkipRun(t[|w|..]);
      CollapseRuns(t) == w + (['-'] + CollapseRuns(u))
  {
    var w := LeadingWord(t);
    var rest := t[|w|..];
    FirstWord(t);
    CollapseAfterRun(rest);
  }

  /** What follows the first run ends where the whole string ends. */
  lemma MoreWordsTrail(t: string)
    requires t != []
    requires var rest := t[|LeadingWord(t)|..]; rest != [] && SkipRun(rest) != []
    ensures Trail(t) == Trail(SkipRun(t[|LeadingWord(t)|..]))
  {
    var rest := t[|LeadingWord(t)|..];
    assert rest[|rest| - 1] == t[|t| - 1];
    SkipRunLast(rest);
    TrailSameLast(t, SkipRun(rest));
  }

  /** `Trail` looks only at the last character. */
  lemma TrailSameLast(t: string, u: string)
    requires t != [] && u != [] && t[|t| - 1] == u[|u| - 1]
    ensures Trail(t) == Trail(u)
  {
  }

  /** Appending the empty string changes nothing; kept apart so the larger proofs stay cheap. */
  lemma AppendNothing(a: string, b: string)
    requires b == []
    ensures a + b == a
  {
  }

  /** Regroups a collapsed word, its `-` and the collapsed rest into joined words followed by the trail. */
  lemma Stitch(ct: string, cu: string, w: string, jt: string, ju: string, trail: string)
    requires ct == w + (['-'] + cu) && cu == ju + trail
    requires jt == w + ['-'] + ju
    ensures ct == jt + trail
  {
  }

  /** Words joined by `-` start and end with a letter or digit. */
  lemma {:induction false} JoinedWords(words: seq<string>)
    requires words != []
    requires forall i :: 0 <= i < |words| ==> IsWord(words[i])
    ensures var j := Join(words, '-'); j != [] && IsSlugChar(j[0]) && IsSlugChar(j[|j| - 1])
  {
    var w := words[0];
    assert IsWord(w);
    if |words| == 1 {
      assert IsSlugChar(w[|w| - 1]);
    } else {
      var tail := words[1..];
      assert forall i :: 0 <= i < |tail| ==> IsWord(tail[i]);
      JoinedWords(tail);
      ConcatShape(w, ['-'], Join(tail, '-'), []);
    }
  }

  /** Regrouping `w + h + j + trail`, and the first and last characters of `w + h + j`. */
  lemma ConcatShape(w: string, h: string, j: string, trail: string)
    requires w != [] && j != []
    ensures w + (h + (j + trail)) == (w + h + j) + trail
    ensures w + h + j != [] && (w + h + j)[0] == w[0]
    ensures (w + h + j)[|w + h + j| - 1] == j[|j| - 1]
  {
  }

  /** A string that starts with a letter or digit: its first word, then the rest. */
  lemma FirstWord(t: string)
    requires t != [] && IsSlugChar(t[0])
    ensures var w := LeadingWord(t); var rest := t[|w|..];
      IsWord(w) && t == w + rest && (rest != [] ==> !IsSlugChar(rest[0])) &&
      Words(t) == [w] + Words(rest) &&
      CollapseRuns(t) == w + CollapseRuns(rest) &&
      (rest == [] ==> t[|t| - 1] == w[|w| - 1]) &&
      (rest != [] ==> t[|t| - 1] == rest[|rest| - 1])
  {
    var w := LeadingWord(t);
    var rest := t[|w|..];
    assert |w| >= 1;
    assert t == w + rest;
    assert SkipRun(t) == t;
    CollapseSlugPrefix(w, rest);
  }

  /** A word followed by a run only: the words are that word, and the run becomes one `-`. */
  lemma WordThenRun(w: string, rest: string)
    requires IsWord(w) && rest != [] && !IsSlugChar(rest[0]) && SkipRun(rest) == []
    ensures Words(rest) == []
    ensures Join([w] + Words(rest), '-') == w
    ensures w + CollapseRuns(rest) == w + "-"
    ensures !IsSlugChar(rest[|rest| - 1])
  {
    SkipRunToEnd(rest);
    assert [w] + [] == [w];
    assert SkipRun(rest[1..]) == [];
    assert CollapseRuns(rest) == "-" + CollapseRuns([]);
    assert CollapseRuns(rest) == "-";
  }

  /** Joining after a first word puts one `-` between it and the rest. */
  lemma JoinAfterWord(w: string, words: seq<string>)
    requires words != []
    ensures Join([w] + words, '-') == w + ['-'] + Join(words, '-')
  {
    assert ([w] + words)[1..] == words;
  }

  /** A run of other characters at the front becomes one `-`. */
  lemma CollapseAfterRun(rest: string)
    requires rest != [] && !IsSlugChar(rest[0])
    ensures CollapseRuns(rest) == ['-'] + CollapseRuns(SkipRun(rest))
  {
    assert SkipRun(rest) == SkipRun(rest[1..]);
  }

  /** What follows a run ends where the whole string ends. */
  lemma SkipRunLast(rest: string)
    requires SkipRun(rest) != []
    ensures rest[|rest| - 1] == SkipRun(rest)[|SkipRun(rest)| - 1]
  {
    var u := SkipRun(rest);
    assert u == rest[|rest| - |u|..];
  }

  /** Trimming removes exactly a leading and a trailing `-` around a text without them. */
  lemma TrimFramed(c: string, lead: string, j: string, trail: string)
    requires lead == [] || lead == ['-']
    requires trail == [] || trail == ['-']
    requires j != [] && IsSlugChar(j[0]) && IsSlugChar(j[|j| - 1])
    requires c == lead + (j + trail)
    ensures TrimHyphen(c) == j
  {
    var a := j + trail;
    assert c[|lead|..] == a;
    if trail != [] {
      assert a[..|a| - 1] == j;
    }
  }

  /** Trimming the collapsed text leaves the words joined by `-`. */
  lemma TrimCollapsedWords(s: string)
    ensures TrimHyphen(CollapseRuns(s)) == Join(Words(s), '-')
  {
    if s == [] {
    } else if IsSlugChar(s[0]) {
      TrimFromWord(s);
    } else {
      TrimAfterRun(s);
    }
  }

  /** Trimming the collapsed text of a string that starts with a run. */
  lemma TrimAfterRun(s: string)
    requires s != [] && !IsSlugChar(s[0])
    ensures TrimHyphen(CollapseRuns(s)) == Join(Words(s), '-')
  {
    if SkipRun(s) == [] {
      TrimOnlyRun(s);
    } else {
      TrimRunThenWord(s);
    }
  }

  lemma TrimOnlyRun(s: string)
    requires s != [] && !IsSlugChar(s[0]) && SkipRun(s) == []
    ensures TrimHyphen(CollapseRuns(s)) == Join(Words(s), '-')
  {
    CollapseAfterRun(s);
    SkipRunWords(s);
    AppendNothing(['-'], CollapseRuns(SkipRun(s)));
  }

  lemma TrimRunThenWord(s: string)
    requires s != [] && !IsSlugChar(s[0]) && SkipRun(s) != []
    ensures TrimHyphen(CollapseRuns(s)) == Join(Words(s), '-')
  {
    CollapseAfterRun(s);
    SkipRunWords(s);
    TrimHyphenWord(SkipRun(s));
  }


  /** Trimming the collapsed text of a string that starts with a word. */
  lemma TrimFromWord(t: string)
    requires t != [] && IsSlugChar(t[0])
    ensures TrimHyphen(CollapseRuns(t)) == Join(Words(t), '-')
  {
    CollapseFromWord(t);
    JoinedWords(Words(t));
    TrimFramedBare(CollapseRuns(t), Join(Words(t), '-'), Trail(t));
  }

  lemma TrimFramedBare(c: string, j: string, trail: string)
    requires trail == [] || trail == ['-']
    requires j != [] && IsSlugChar(j[0]) && IsSlugChar(j[|j| - 1])
    requires c == j + trail
    ensures TrimHyphen(c) == j
  {
    if trail != [] { assert c[..|c| - 1] == j; }
  }

  /** Trimming `-` and the collapsed text of a string that starts with a word. */
  lemma TrimHyphenWord(t: string)
    requires t != [] && IsSlugChar(t[0])
    ensures TrimHyphen(['-'] + CollapseRuns(t)) == Join(Words(t), '-')
  {
    CollapseFromWord(t);
    JoinedWords(Words(t));
    TrimFramed(['-'] + CollapseRuns(t), ['-'], Join(Words(t), '-'), Trail(t));
  }

  /** Trimming a collapsed string leaves a valid stem with the same letters and digits. */
  lemma TrimHyphenSlug(s: string)
    requires Collapsed(s)
    ensures IsSlug(TrimHyphen(s))
    ensures SlugChars(TrimHyphen(s)) == SlugChars(s)
  {
    var a := if s != [] && s[0] == '-' then s[1..] else s;
    if s != [] && s[0] == '-' {
      assert SlugChars(s) == SlugChars(a);
    }
    if a != [] && a[|a| - 1] == '-' {
      SlugCharsSnoc(a[..|a| - 1], '-');
      assert a[..|a| - 1] + ['-'] == a;
    }
  }

  lemma {:induction false} SlugCharsSnoc(s: string, c: char)
    ensures SlugChars(s + [c]) == SlugChars(s) + (if IsSlugChar(c) then [c] else [])
  {
    if s != [] {
      assert (s + [c])[1..] == s[1..] + [c];
      SlugCharsSnoc(s[1..], c);
    } else {
      assert [] + [c] == [c];
    }
  }

  // ---------------------------------------------------------------------
  // Properties of the stem

  /** A valid stem is its own stem: sanitising is idempotent. */
  lemma SanitizeIdempotent(title: string)
    ensures Sanitize(Sanitize(title)) == Sanitize(title)
  {
    SanitizeSlug(Sanitize(title));
  }

  /** Sanitising leaves a valid stem unchanged. */
  lemma SanitizeSlug(s: string)
    requires IsSlug(s)
    ensures Sanitize(s) == s
  {
    LowerSlug(s);
    CollapseRunsCollapsed(s);
  }

  lemma LowerSlug(s: string)
    requires Collapsed(s)
    ensures Lower(s) == s
  {
  }

  /** A collapsed string has nothing left to collapse. */
  lemma {:induction false} CollapseRunsCollapsed(s: string)
    requires Collapsed(s)
    ensures CollapseRuns(s) == s
    decreases |s|
  {
    if s != [] {
      if IsSlugChar(s[0]) {
        CollapseRunsCollapsed(s[1..]);
      } else {
        assert SkipRun(s[1..]) == s[1..];
        CollapseRunsCollapsed(s[1..]);
        assert "-" + s[1..] == s;
      }
    }
  }

  /** The stem is empty exactly when the title has no ASCII letter or digit. */
  lemma SanitizeEmpty(title: string)
    ensures Sanitize(title) == [] <==> SlugChars(Lower(title)) == []
  {
    var stem := Sanitize(title);
    if stem != [] && SlugChars(stem) == [] {
      NoSlugCharsAllHyphens(stem);
      assert false;
    }
  }

  /** A non-empty valid stem contains a letter or digit. */
  lemma {:induction false} NoSlugCharsAllHyphens(s: string)
    requires IsSlug(s) && s != []
    ensures SlugChars(s) != []
  {
    assert IsSlugChar(s[0]);
  }

  /** A run of letters and digits is copied unchanged. */
  lemma {:induction false} CollapseSlugPrefix(a: string, b: string)
    requires forall i :: 0 <= i < |a| ==> IsSlugChar(a[i])
    ensures CollapseRuns(a + b) == a + CollapseRuns(b)
  {
    if a != [] {
      assert (a + b)[1..] == a[1..] + b;
      CollapseSlugPrefix(a[1..], b);
      assert [a[0]] + (a[1..] + CollapseRuns(b)) == a + CollapseRuns(b);
    } else {
      assert a + b == b;
    }
  }

  /** A whole run of other characters becomes one `-`. */
  lemma CollapseRunPrefix(run: string, b: string)
    requires run != [] && forall i :: 0 <= i < |run| ==> !IsSlugChar(run[i])
    requires b == [] || IsSlugChar(b[0])
    ensures CollapseRuns(run + b) == "-" + CollapseRuns(b)
  {
    assert (run + b)[1..] == run[1..] + b;
    SkipRunOf(run[1..], b);
  }

  lemma {:induction false} SkipRunOf(run: string, b: string)
    requires forall i :: 0 <= i < |run| ==> !IsSlugChar(run[i])
    requires b == [] || IsSlugChar(b[0])
    ensures SkipRun(run + b) == b
  {
    if run != [] {
      assert (run + b)[1..] == run[1..] + b;
      SkipRunOf(run[1..], b);
    } else {
      assert run + b == b;
    }
  }

  /** Three words separated by runs of other characters become the words joined by `-`. */
  lemma CollapseWords(a: string, r1: string, b: string, r2: string, c: string)
    requires a != [] && b != [] && c != [] && r1 != [] && r2 != []
    requires forall i :: 0 <= i < |a| ==> IsSlugChar(a[i])
    requires forall i :: 0 <= i < |b| ==> IsSlugChar(b[i])
    requires forall i :: 0 <= i < |c| ==> IsSlugChar(c[i])
    requires forall i :: 0 <= i < |r1| ==> !IsSlugChar(r1[i])
    requires forall i :: 0 <= i < |r2| ==> !IsSlugChar(r2[i])
    ensures CollapseRuns(a + (r1 + (b + (r2 + c)))) == a + ("-" + (b + ("-" + c)))
  {
    CollapseSlugPrefix(c, []);
    assert c + [] == c;
    CollapseWordRun(b, r2, c);
    CollapseWordRun(a, r1, b + (r2 + c));
  }

  /** A word followed by a run is the word and one `-`, then the rest. */
  lemma CollapseWordRun(a: string, r: string, rest: string)
    requires r != [] && rest != [] && IsSlugChar(rest[0])
    requires forall i :: 0 <= i < |a| ==> IsSlugChar(a[i])
    requires forall i :: 0 <= i < |r| ==> !IsSlugChar(r[i])
    ensures CollapseRuns(a + (r + rest)) == a + ("-" + CollapseRuns(rest))
  {
    CollapseRunPrefix(r, rest);
    CollapseSlugPrefix(a, r + rest);
  }

  /** The example from the tool's documentation. */
  lemma SanitizeExample(title: string)
    requires title == "User Login!! Flow"
    ensures Sanitize(title) == "user-login-flow"
  {
    var lowered := "user" + (" " + ("login" + ("!! " + "flow")));
    LowerExample(title, lowered);
    var collapsed := "user" + ("-" + ("login" + ("-" + "flow")));
    CollapseWords("user", " ", "login", "!! ", "flow");
    TrimExample(collapsed);
  }

  lemma LowerExample(title: string, lowered: string)
    requires title == "User Login!! Flow"
    requires lowered == "user" + (" " + ("login" + ("!! " + "flow")))
    ensures Lower(title) == lowered
  {
  }

  lemma TrimExample(collapsed: string)
    requires collapsed == "user" + ("-" + ("login" + ("-" + "flow")))
    ensures TrimHyphen(collapsed) == "user-login-flow"
  {
    assert collapsed == "user-login-flow";
    assert collapsed[0] == 'u' && collapsed[|collapsed| - 1] == 'w';
  }

  // ---------------------------------------------------------------------
  // Default paths

  /** `${stem}${ext}` is a plain path segment for any stem and a non-empty extension without `/`. */
  lemma FileNamePlain(stem: string, ext: string)
    requires IsSlug(stem)
    requires ext != [] && ext[0] == '.' && '/' !in ext && ext != "." && ext != ".."
    ensures IsPlainSegment(stem + ext)
  {
    var f := stem + ext;
    forall i | 0 <= i < |f|
      ensures f[i] != '/'
    {
      if i < |stem| {
        assert f[i] == stem[i];
      } else {
        assert f[i] == ext[i - |stem|];
      }
    }
    assert stem == [] ==> f == ext;
    assert stem != [] ==> f != "." && f != ".." by {
      if stem != [] {
        assert f[0] == stem[0] != '.';
      }
    }
  }

  /** The segments of the default locations. */
  const Docs := "docs"
  const Diagrams := "diagrams"
  const Images := "images"

  /** `docs/diagrams`, where default markdown files go. */
  const DiagramsDir := Docs + "/" + Diagrams
  /** `docs/diagrams/images`, where default images go. */
  const ImagesDir := DiagramsDir + "/" + Images

  lemma SegmentsPlain()
    ensures IsPlainSegment(Docs) && IsPlainSegment(Diagrams) && IsPlainSegment(Images)
  {
  }

  /** `generateMarkdownPath(title, folderStructure)`. */
  function DefaultMarkdownPath(title: string, folderStructure: Option<string>): (path: string)
    ensures var file := Sanitize(title) + ".md"; EndsWith(path, "/" + file) || path == file
    ensures !Truthy(folderStructure) ==> path == DiagramsDir + "/" + (Sanitize(title) + ".md")
    ensures Truthy(folderStructure) && IsPlainSegment(folderStructure.value) ==>
              path == DiagramsDir + "/" + folderStructure.value + "/" + (Sanitize(title) + ".md")
  {
    var file := Sanitize(title) + ".md";
    FileNamePlain(Sanitize(title), ".md");
    if Truthy(folderStructure) then FolderPath(folderStructure.value, file) else PlainPath(file)
  }

  /** `docs/diagrams/<file>`. */
  function PlainPath(file: string): (path: string)
    requires IsPlainSegment(file)
    ensures path == DiagramsDir + "/" + file
    ensures EndsWith(path, "/" + file)
  {
    SegmentsPlain();
    JoinThreePlain(Docs, Diagrams, file);
    PathJoin([Docs, Diagrams, file])
  }

  /** `docs/diagrams/<folder>/<file>`, normalised when the folder is not a plain segment. */
  function FolderPath(folder: string, file: string): (path: string)
    requires IsPlainSegment(file)
    ensures EndsWith(path, "/" + file) || path == file
    ensures IsPlainSegment(folder) ==> path == DiagramsDir + "/" + folder + "/" + file
  {
    SegmentsPlain();
    var args := [Docs, Diagrams, folder];
    JoinEndsWithFile(args, file);
    assert args + [file] == [Docs, Diagrams, folder, file];
    if IsPlainSegment(folder) then
      JoinFourPlain(Docs, Diagrams, folder, file);
      PathJoin([Docs, Diagrams, folder, file])
    else
      PathJoin([Docs, Diagrams, folder, file])
  }

  /** The name an untitled image is saved under. */
  const Untitled := "diagram"

  /** The stem of an image file: from the title, or from `diagram` when there is none. */
  function ImageStem(title: Option<string>): string {
    Sanitize(OrElse(title, Untitled))
  }

  /** `generateImagePath(title)`. */
  function DefaultImagePath(title: Option<string>): (path: string)
    ensures path == ImagesDir + "/" + (ImageStem(title) + ".png")
  {
    var file := ImageStem(title) + ".png";
    FileNamePlain(ImageStem(title), ".png");
    ImageJoin(file);
    PathJoin([Docs, Diagrams, Images, file])
  }

  lemma ImageJoin(file: string)
    requires IsPlainSegment(file)
    ensures PathJoin([Docs, Diagrams, Images, file]) == ImagesDir + "/" + file
  {
    SegmentsPlain();
    JoinFourPlain(Docs, Diagrams, Images, file);
  }

  /** No title, or an empty one, falls back to the stem `diagram`. */
  lemma DefaultImagePathUntitled(title: Option<string>)
    requires !Truthy(title)
    ensures DefaultImagePath(title) == ImagesDir + "/diagram.png"
  {
    var stem := ImageStem(title);
    UntitledStem(title);
    DiagramFile(stem);
    assert ImagesDir + "/" + (stem + ".png") == ImagesDir + ("/" + (stem + ".png"));
  }

  lemma UntitledStem(title: Option<string>)
    requires !Truthy(title)
    ensures ImageStem(title) == Untitled
  {
    SanitizeSlug(Untitled);
  }

  lemma DiagramFile(stem: string)
    requires stem == Untitled
    ensures "/" + (stem + ".png") == "/diagram.png"
  {
  }

  /**
   * The fallback applies to the title before sanitising: a title with no
   * ASCII letter or digit gives the empty stem, so the file is `.png`.
   */
  lemma DefaultImagePathNoStem(title: string)
    requires title != "" && SlugChars(Lower(title)) == []
    ensures DefaultImagePath(Some(title)) == ImagesDir + "/.png"
  {
    SanitizeEmpty(title);
  }
}

=== FILE: paths.dfy ===
/**
 * Node's POSIX `path.join` and `path.dirname`, which the tools use to build
 * default output locations and to find the directory to create before a
 * file is written. `join` drops empty arguments, glues the rest with `/` and
 * normalises: empty and `.` segments vanish, `..` removes the segment before
 * it (or stays, at the start of a relative path; or vanishes, at the root of
 * an absolute one), and a leading or trailing `/` is kept.
 */
module Paths {
  import opened Strings

  /** A segment that normalisation keeps exactly as it is. */
  predicate IsPlainSegment(s: string) {
    s != "" && s != "." && s != ".." && '/' !in s
  }

  predicate AllPlain(segs: seq<string>) {
    forall i :: 0 <= i < |segs| ==> IsPlainSegment(segs[i])
  }

  /** No segment of a resolved path is empty or `.`. */
  predicate Resolved(stack: seq<string>) {
    forall i :: 0 <= i < |stack| ==> stack[i] != "" && stack[i] != "."
  }

  /**
   * Walks `segs` left to right over the segments kept so far (`stack`), the
   * way node's `normalizeString` does.
   */
  function Resolve(stack: seq<string>, segs: seq<string>, absolute: bool): (r: seq<string>)
    requires Resolved(stack)
    ensures Resolved(r)
    ensures absolute && ".." !in stack ==> ".." !in r
    decreases |segs|
  {
    if segs == [] then stack
    else
      var s := segs[0];
      if s == "" || s == "." then Resolve(stack, segs[1..], absolute)
      else if s == ".." then
        if |stack| > 0 && stack[|stack| - 1] != ".." then Resolve(stack[..|stack| - 1], segs[1..], absolute)
        else if absolute then Resolve(stack, segs[1..], absolute)
        else Resolve(stack + [".."], segs[1..], absolute)
      else Resolve(stack + [s], segs[1..], absolute)
  }

  /** `path.posix.normalize`. */
  function Normalize(p: string): (r: string)
    ensures r != ""
  {
    if p == [] then "."
    else
      var absolute := p[0] == '/';
      Rebuild(absolute, p[|p| - 1] == '/', Join(Resolve([], Split(p, '/'), absolute), '/'))
  }

  /**
   * The normalised path from its resolved body: the root `/` of an absolute
   * path and a trailing `/` are put back; an empty body becomes `/`, `./`
   * or `.`.
   */
  function Rebuild(absolute: bool, trailing: bool, body: string): (r: string)
    ensures r != ""
    ensures body != [] && !absolute && !trailing ==> r == body
  {
    if body == [] then (if absolute then "/" else if trailing then "./" else ".")
    else (if absolute then "/" else "") + body + (if trailing then "/" else "")
  }

  /** The arguments of a `join` that are not the empty string, in order. */
  function NonEmptyParts(args: seq<string>): (parts: seq<string>)
    ensures |parts| <= |args|
    ensures forall i :: 0 <= i < |parts| ==> parts[i] != "" && parts[i] in args
  {
    if args == [] then []
    else if args[0] == "" then NonEmptyParts(args[1..])
    else [args[0]] + NonEmptyParts(args[1..])
  }

  /** `path.posix.join(...args)`. */
  function PathJoin(args: seq<string>): (r: string)
    ensures r != ""
  {
    var parts := NonEmptyParts(args);
    if parts == [] then "." else Normalize(Join(parts, '/'))
  }

  /**
   * Index of the separator that ends the directory part of `p`, scanning
   * from `i` down to 1; `matchedSlash` holds while only separators have been
   * seen. -1 when there is none.
   */
  function DirnameEnd(p: string, i: nat, matchedSlash: bool): (end: int)
    requires i < |p|
    ensures -1 <= end <= i
    ensures end != -1 ==> 1 <= end && p[end] == '/'
    decreases i
  {
    if i < 1 then -1
    else if p[i] == '/' then (if !matchedSlash then i else DirnameEnd(p, i - 1, matchedSlash))
    else DirnameEnd(p, i - 1, false)
  }

  /** `path.posix.dirname`. */
  function Dirname(p: string): (r: string)
    ensures r != ""
  {
    if p == [] then "."
    else
      var hasRoot := p[0] == '/';
      var end := DirnameEnd(p, |p| - 1, true);
      if end == -1 then (if hasRoot then "/" else ".")
      else if hasRoot && end == 1 then "//"
      else p[..end]
  }

  // ---------------------------------------------------------------------
  // Lemmas

  /** Plain segments pass through normalisation unchanged. */
  lemma {:induction false} ResolvePlain(stack: seq<string>, segs: seq<string>, absolute: bool)
    requires Resolved(stack)
    requires AllPlain(segs)
    ensures Resolve(stack, segs, absolute) == stack + segs
    decreases |segs|
  {
    if segs != [] {
      ResolvePlain(stack + [segs[0]], segs[1..], absolute);
      assert stack + [segs[0]] + segs[1..] == stack + segs;
    }
  }

  /** A plain last segment is always the last segment kept. */
  lemma {:induction false} ResolveSnocPlain(stack: seq<string>, segs: seq<string>, f: string, absolute: bool)
    requires Resolved(stack)
    requires IsPlainSegment(f)
    ensures Resolve(stack, segs + [f], absolute) == Resolve(stack, segs, absolute) + [f]
    decreases |segs|
  {
    if segs == [] {
      assert [] + [f] == [f];
      ResolvePlain(stack, [f], absolute);
    } else {
      var s := segs[0];
      assert (segs + [f])[0] == s;
      assert (segs + [f])[1..] == segs[1..] + [f];
      if s == "" || s == "." {
        ResolveSnocPlain(stack, segs[1..], f, absolute);
      } else if s == ".." {
        if |stack| > 0 && stack[|stack| - 1] != ".." {
          ResolveSnocPlain(stack[..|stack| - 1], segs[1..], f, absolute);
        } else if absolute {
          ResolveSnocPlain(stack, segs[1..], f, absolute);
        } else {
          ResolveSnocPlain(stack + [".."], segs[1..], f, absolute);
        }
      } else {
        ResolveSnocPlain(stack + [s], segs[1..], f, absolute);
      }
    }
  }

  /** Splitting at a separator splits the two sides independently. */
  lemma {:induction false} SplitConcat(a: string, b: string, sep: char)
    ensures Split(a + [sep] + b, sep) == Split(a, sep) + Split(b, sep)
  {
    if a == [] {
      assert [] + [sep] + b == [sep] + b;
      assert ([sep] + b)[1..] == b;
    } else {
      assert (a + [sep] + b)[1..] == a[1..] + [sep] + b;
      SplitConcat(a[1..], b, sep);
    }
  }

  lemma {:induction false} JoinSnoc(parts: seq<string>, f: string, sep: char)
    requires |parts| >= 1
    ensures Join(parts + [f], sep) == Join(parts, sep) + [sep] + f
  {
    if |parts| == 1 {
      assert parts + [f] == [parts[0], f];
      assert [parts[0], f][1..] == [f];
    } else {
      assert (parts + [f])[1..] == parts[1..] + [f];
      JoinSnoc(parts[1..], f, sep);
    }
  }

  lemma {:induction false} NonEmptyPartsSnoc(args: seq<string>, f: string)
    requires f != ""
    ensures NonEmptyParts(args + [f]) == NonEmptyParts(args) + [f]
  {
    if args == [] {
      assert [] + [f] == [f];
      assert [f][1..] == [];
    } else {
      assert (args + [f])[1..] == args[1..] + [f];
      NonEmptyPartsSnoc(args[1..], f);
    }
  }

  lemma {:induction false} NonEmptyPartsPlain(args: seq<string>)
    requires AllPlain(args)
    ensures NonEmptyParts(args) == args
  {
    if args != [] {
      NonEmptyPartsPlain(args[1..]);
    }
  }

  /** Joining plain segments is gluing them with `/`. */
  lemma JoinPlain(args: seq<string>)
    requires |args| >= 1
    requires AllPlain(args)
    ensures PathJoin(args) == Join(args, '/')
  {
    NonEmptyPartsPlain(args);
    var p := Join(args, '/');
    JoinStartsWithFirst(args, '/');
    JoinEndsWithLast(args, '/');
    assert p != [] && p[0] == args[0][0] && p[|p| - 1] == args[|args| - 1][|args[|args| - 1]| - 1];
    SplitJoin(args, '/');
    ResolvePlain([], args, false);
    assert [] + args == args;
    NormalizeRelative(p, p);
  }

  /** Three plain segments join to `a/b/c`, which ends with `/c`. */
  lemma JoinThreePlain(a: string, b: string, c: string)
    requires IsPlainSegment(a) && IsPlainSegment(b) && IsPlainSegment(c)
    ensures PathJoin([a, b, c]) == a + "/" + b + "/" + c
    ensures EndsWith(PathJoin([a, b, c]), "/" + c)
  {
    JoinPlain([a, b, c]);
    JoinThree(a, b, c, '/');
    EndsWithAfterSlash(a + "/" + b, c);
  }

  lemma EndsWithAfterSlash(a: string, c: string)
    ensures EndsWith(a + "/" + c, "/" + c)
  {
    assert a + "/" + c == a + ("/" + c);
  }

  /** Four plain segments join to `a/b/c/d`. */
  lemma JoinFourPlain(a: string, b: string, c: string, d: string)
    requires IsPlainSegment(a) && IsPlainSegment(b) && IsPlainSegment(c) && IsPlainSegment(d)
    ensures PathJoin([a, b, c, d]) == a + "/" + b + "/" + c + "/" + d
  {
    JoinPlain([a, b, c, d]);
    JoinFour(a, b, c, d, '/');
  }

  lemma {:induction false} JoinStartsWithFirst(parts: seq<string>, sep: char)
    requires |parts| >= 1
    ensures StartsWith(Join(parts, sep), parts[0])
  {
  }

  lemma {:induction false} JoinEndsWithLast(parts: seq<string>, sep: char)
    requires |parts| >= 1
    ensures EndsWith(Join(parts, sep), parts[|parts| - 1])
  {
    if |parts| > 1 {
      JoinSnoc(parts[..|parts| - 1], parts[|parts| - 1], sep);
      assert parts[..|parts| - 1] + [parts[|parts| - 1]] == parts;
    }
  }

  /**
   * Whatever the middle arguments are, a join that starts with a plain
   * segment and ends with a plain file name yields that file name, either
   * alone or after a `/`.
   */
  lemma JoinEndsWithFile(args: seq<string>, f: string)
    requires |args| >= 1 && IsPlainSegment(args[0])
    requires IsPlainSegment(f)
    ensures var r := PathJoin(args + [f]); r == f || EndsWith(r, "/" + f)
  {
    NonEmptyPartsSnoc(args, f);
    var ys := NonEmptyParts(args);
    assert ys != [] && ys[0] == args[0] by {
      NonEmptyPartsHead(args);
    }
    var a := Join(ys, '/');
    JoinSnoc(ys, f, '/');
    JoinStartsWithFirst(ys, '/');
    assert a[0] == args[0][0];
    NormalizeRelativeFile(a, f);
  }

  lemma NonEmptyPartsHead(args: seq<string>)
    requires |args| >= 1 && args[0] != ""
    ensures NonEmptyParts(args) == [args[0]] + NonEmptyParts(args[1..])
  {
  }

  /** Normalising `a/f`, with `a` relative and `f` a plain file name, keeps `f` last. */
  lemma NormalizeRelativeFile(a: string, f: string)
    requires a != [] && a[0] != '/'
    requires IsPlainSegment(f)
    ensures var r := Normalize(a + ['/'] + f); r == f || EndsWith(r, "/" + f)
  {
    var p := a + ['/'] + f;
    var rs := Resolve([], Split(a, '/'), false);
    ResolveFile(a, f);
    var body := Join(rs + [f], '/');
    JoinSnocShape(rs, f);
    NormalizeRelative(p, body);
  }

  lemma ResolveFile(a: string, f: string)
    requires IsPlainSegment(f)
    ensures Resolve([], Split(a + ['/'] + f, '/'), false) == Resolve([], Split(a, '/'), false) + [f]
  {
    SplitConcat(a, f, '/');
    SplitPlain(f, '/');
    ResolveSnocPlain([], Split(a, '/'), f, false);
  }

  /** Joining segments that end with `f` gives `f` or a string ending with `/f`. */
  lemma JoinSnocShape(rs: seq<string>, f: string)
    requires f != []
    ensures var body := Join(rs + [f], '/'); body != [] && (body == f || EndsWith(body, "/" + f))
  {
    var body := Join(rs + [f], '/');
    JoinEndsWithLast(rs + [f], '/');
    if rs == [] {
      assert rs + [f] == [f];
    } else {
      JoinSnoc(rs, f, '/');
      assert body == Join(rs, '/') + ("/" + f);
    }
  }

  /** A relative path without a trailing `/` normalises to its resolved segments. */
  lemma NormalizeRelative(p: string, body: string)
    requires p != [] && p[0] != '/' && p[|p| - 1] != '/'
    requires body == Join(Resolve([], Split(p, '/'), false), '/') && body != []
    ensures Normalize(p) == body
  {
  }

  /** The directory of `d/f` is `d`, for a file name `f` and a directory `d` without a trailing `/`. */
  lemma DirnameOfChild(d: string, f: string)
    requires d != [] && d[|d| - 1] != '/'
    requires f != [] && '/' !in f
    ensures Dirname(d + "/" + f) == d
  {
    var p := d + "/" + f;
    assert p[|d|] == '/';
    assert forall j :: |d| < j < |p| ==> p[j] == f[j - |d| - 1];
    DirnameEndFinds(p, |p| - 1, true, |d|);
    assert p[..|d|] == d;
  }

  lemma {:induction false} DirnameEndFinds(p: string, i: nat, matched: bool, k: nat)
    requires k <= i < |p|
    requires 1 <= k && p[k] == '/'
    requires forall j :: k < j <= i ==> p[j] != '/'
    requires !matched || i > k
    ensures DirnameEnd(p, i, matched) == k
    decreases i
  {
    if i > k {
      DirnameEndFinds(p, i - 1, false, k);
    }
  }
}

=== FILE: remote.dfy ===
/**
 * The two requests made to the Swimlanes.io service and how their replies
 * are read. A reply is an abstract value: either the request failed before
 * any response arrived (a transport error, carrying its message), or a
 * response arrived with a status, a status text and, for the link request,
 * a `Location` header, or, for the image request, the bytes of the body
 * reached after redirects were followed.
 */
module Remote {
  import opened Wrappers
  import opened Strings
  import opened Json

  const ApiBase := "https://api.swimlanes.io/v1"
  const ImageLinkUrl := ApiBase + "/image-link"
  const ImageUrl := ApiBase + "/image"

  /** The link request must see the service's own reply, so it follows no redirect. */
  const LinkMaxRedirects: nat := 0
  /** The image request follows up to five redirects to reach the image. */
  const ImageMaxRedirects: nat := 5

  /** 201 Created: the only status the link request accepts. */
  const Created: nat := 201

  const NoLocationMessage := "No location header returned from Swimlanes.io API"
  const ApiErrorPrefix := "Swimlanes.io API error: "

  datatype LinkReply =
    | LinkTransportError(message: string)
    | LinkResponse(status: nat, statusText: string, location: Option<string>)

  datatype ImageReply =
    | ImageTransportError(message: string)
    | ImageResponse(status: nat, statusText: string, data: seq<bv8>)

  // ---------------------------------------------------------------------
  // Request body

  /** `{ text }`, with `high_resolution: true` added only when asked for. */
  function RequestBody(text: string, highResolution: bool): (body: Object)
    ensures "text" in body && body["text"] == JString(text)
    ensures "high_resolution" in body <==> highResolution
    ensures "high_resolution" in body ==> body["high_resolution"] == JBool(true)
    ensures forall k :: k in body ==> k == "text" || k == "high_resolution"
  {
    var body := map["text" := JString(text)];
    if highResolution then body["high_resolution" := JBool(true)] else body
  }

  /** How the service reads a request body: the text, and whether high resolution is on. */
  function ReadRequestBody(body: Object): Option<(string, bool)> {
    if "text" in body && body["text"].JString? then
      Some((body["text"].s, "high_resolution" in body && body["high_resolution"] == JBool(true)))
    else None
  }

  /** The service reads back exactly the text and resolution the body was built from. */
  lemma RequestBodyRoundTrip(text: string, highResolution: bool)
    ensures ReadRequestBody(RequestBody(text, highResolution)) == Some((text, highResolution))
  {
  }

  // ---------------------------------------------------------------------
  // Error messages

  /** `Swimlanes.io API error: ${status} ${statusText}`. */
  function ApiError(status: nat, statusText: string): string {
    ApiErrorPrefix + NatToString(status) + " " + statusText
  }

  /** Recovers the status and the status text from an API error message. */
  function ReadApiError(message: string): Option<(nat, string)> {
    if !StartsWith(message, ApiErrorPrefix) then None
    else
      var rest := message[|ApiErrorPrefix|..];
      var digits := LeadingDigits(rest);
      if digits == [] || |digits| == |rest| || rest[|digits|] != ' ' then None
      else Some((ParseNat(digits), rest[|digits| + 1..]))
  }

  /** The status and the status text travel verbatim inside the message. */
  lemma {:induction false} ApiErrorRoundTrip(status: nat, statusText: string)
    ensures ReadApiError(ApiError(status, statusText)) == Some((status, statusText))
  {
    var numeral := NatToString(status);
    var message := ApiError(status, statusText);
    assert message == ApiErrorPrefix + (numeral + (" " + statusText));
    assert StartsWith(message, ApiErrorPrefix);
    var rest := message[|ApiErrorPrefix|..];
    assert rest == numeral + (" " + statusText);
    LeadingDigitsOf(numeral, " " + statusText);
    assert rest[|numeral|] == ' ';
    assert rest[|numeral| + 1..] == statusText;
    ParseNatToString(status);
  }

  /** Different replies give different API error messages. */
  lemma ApiErrorInjective(s1: nat, t1: string, s2: nat, t2: string)
    requires ApiError(s1, t1) == ApiError(s2, t2)
    ensures s1 == s2 && t1 == t2
  {
    ApiErrorRoundTrip(s1, t1);
    ApiErrorRoundTrip(s2, t2);
  }

  // ---------------------------------------------------------------------
  // Reading replies

  /**
   * `generateImageLink`: the shareable URL, or the message of the error it
   * throws.
   */
  function LinkOutcome(reply: LinkReply): (r: Result<string, string>)
    ensures r.Success? <==>
      reply.LinkResponse? && reply.status == Created && Truthy(reply.location)
    ensures r.Success? ==> r.value == reply.location.value && r.value != ""
    ensures reply.LinkTransportError? ==> r == Failure(reply.message)
    ensures reply.LinkResponse? && reply.status != Created ==>
      r == Failure(ApiError(reply.status, reply.statusText))
    ensures reply.LinkResponse? && reply.status == Created && !Truthy(reply.location) ==>
      r == Failure(NoLocationMessage)
  {
    match reply
    case LinkTransportError(message) => Failure(message)
    case LinkResponse(status, statusText, location) =>
      if status != Created then Failure(ApiError(status, statusText))
      else if !Truthy(location) then Failure(NoLocationMessage)
      else Success(location.value)
  }

  /** A status the image request accepts: any 2xx, the HTTP client's default rule. */
  predicate IsSuccessStatus(status: nat) {
    200 <= status < 300
  }

  /** The image request inside `downloadImage`: the image bytes, or the error message. */
  function ImageOutcome(reply: ImageReply): (r: Result<seq<bv8>, string>)
    ensures r.Success? <==> reply.ImageResponse? && IsSuccessStatus(reply.status)
    ensures r.Success? ==> r.value == reply.data
    ensures reply.ImageTransportError? ==> r == Failure(reply.message)
    ensures reply.ImageResponse? && !IsSuccessStatus(reply.status) ==>
      r == Failure(ApiError(reply.status, reply.statusText))
  {
    match reply
    case ImageTransportError(message) => Failure(message)
    case ImageResponse(status, statusText, data) =>
      if IsSuccessStatus(status) then Success(data) else Failure(ApiError(status, statusText))
  }

  /** A link reply of 200 instead of 201 fails with the status in the message. */
  lemma LinkOkIsNotCreated(statusText: string, location: Option<string>)
    ensures var r := LinkOutcome(LinkResponse(200, statusText, location));
      r.Failure? && StartsWith(r.error, ApiErrorPrefix + "200")
  {
    assert NatToString(200) == "200";
  }
}

=== FILE: schemas.dfy ===
/**
 * The three argument schemas of src/types.ts. Each parses the argument
 * record of one tool into typed, defaulted parameters or reports every
 * issue zod finds, in the order the schema declares its fields. Keys a
 * schema does not declare are dropped.
 */
module Schemas {
  import opened Wrappers
  import opened Json

  /** One zod issue: the path of the offending field and its message. */
  datatype Issue = Issue(path: seq<string>, message: string)

  const TextRequired := "Swimlanes syntax content is required"
  const TitleRequired := "Title is required"
  /** zod's message for a missing value. */
  const Required := "Required"

  datatype CreateParams = CreateParams(
    text: string,
    title: string,
    description: Option<string>,
    outputPath: Option<string>,
    includeImage: bool,
    folderStructure: Option<string>)

  datatype ImageParams = ImageParams(
    text: string,
    title: Option<string>,
    highResolution: bool,
    outputPath: Option<string>)

  datatype LinkParams = LinkParams(
    text: string,
    title: Option<string>,
    highResolution: bool)

  /** The result of checking one field. */
  datatype Checked<+T> = Valid(value: T) | Invalid(issues: seq<Issue>)

  function IssuesOf<T>(c: Checked<T>): seq<Issue> {
    if c.Valid? then [] else c.issues
  }

  function WrongType(key: string, expected: string, v: Json): Issue {
    Issue([key], "Expected " + expected + ", received " + TypeName(v))
  }

  // ---------------------------------------------------------------------
  // Field checks

  /** `z.string().min(1, tooShort)`. */
  function NonEmptyString(args: Object, key: string, tooShort: string): (c: Checked<string>)
    ensures c.Valid? <==> key in args && args[key].JString? && args[key].s != ""
    ensures c.Valid? ==> c.value == args[key].s
    ensures c.Invalid? ==> c.issues == [
      if key !in args then Issue([key], Required)
      else if args[key].JString? then Issue([key], tooShort)
      else WrongType(key, "string", args[key])]
  {
    if key !in args then Invalid([Issue([key], Required)])
    else match args[key]
      case JString(s) => if |s| >= 1 then Valid(s) else Invalid([Issue([key], tooShort)])
      case v => Invalid([WrongType(key, "string", v)])
  }

  /** `z.string().optional()`. */
  function OptionalString(args: Object, key: string): (c: Checked<Option<string>>)
    ensures c.Valid? <==> key !in args || args[key].JString?
    ensures c.Valid? ==> c.value == (if key in args then Some(args[key].s) else None)
    ensures c.Invalid? ==> c.issues == [WrongType(key, "string", args[key])]
  {
    if key !in args then Valid(None)
    else match args[key]
      case JString(s) => Valid(Some(s))
      case v => Invalid([WrongType(key, "string", v)])
  }

  /** `z.boolean().default(default)`. */
  function DefaultedBool(args: Object, key: string, default: bool): (c: Checked<bool>)
    ensures c.Valid? <==> key !in args || args[key].JBool?
    ensures c.Valid? ==> c.value == (if key in args then args[key].b else default)
    ensures c.Invalid? ==> c.issues == [WrongType(key, "boolean", args[key])]
  {
    if key !in args then Valid(default)
    else match args[key]
      case JBool(b) => Valid(b)
      case v => Invalid([WrongType(key, "boolean", v)])
  }

  /** The single issue zod reports when the arguments are missing altogether. */
  const NoArguments := [Issue([], Required)]

  // ---------------------------------------------------------------------
  // The three schemas

  /** `CreateSwimlaneDocumentationSchema.parse(input)`. */
  function ParseCreate(input: Option<Object>): (r: Result<CreateParams, seq<Issue>>)
    ensures input.None? ==> r == Failure(NoArguments)
    ensures r.Failure? ==> r.error != []
    ensures input.Some? ==> var args := input.value;
      && (r.Success? <==>
            && NonEmptyString(args, "text", TextRequired).Valid?
            && NonEmptyString(args, "title", TitleRequired).Valid?
            && OptionalString(args, "description").Valid?
            && OptionalString(args, "outputPath").Valid?
            && DefaultedBool(args, "includeImage", true).Valid?
            && OptionalString(args, "folderStructure").Valid?)
      && (r.Success? ==> r.value.text != "" && r.value.title != "")
    ensures input.Some? && r.Success? ==> var args := input.value;
      && r.value.text == args["text"].s
      && r.value.title == args["title"].s
      && r.value.description == (if "description" in args then Some(args["description"].s) else None)
      && r.value.outputPath == (if "outputPath" in args then Some(args["outputPath"].s) else None)
      && r.value.includeImage == (if "includeImage" in args then args["includeImage"].b else true)
      && r.value.folderStructure == (if "folderStructure" in args then Some(args["folderStructure"].s) else None)
  {
    if input.None? then Failure(NoArguments)
    else
      var args := input.value;
      var text := NonEmptyString(args, "text", TextRequired);
      var title := NonEmptyString(args, "title", TitleRequired);
      var description := OptionalString(args, "description");
      var outputPath := OptionalString(args, "outputPath");
      var includeImage := DefaultedBool(args, "includeImage", true);
      var folderStructure := OptionalString(args, "folderStructure");
      if text.Valid? && title.Valid? && description.Valid? && outputPath.Valid?
         && includeImage.Valid? && folderStructure.Valid?
      then
        Success(CreateParams(text.value, title.value, description.value, outputPath.value,
                             includeImage.value, folderStructure.value))
      else
        Failure(IssuesOf(text) + IssuesOf(title) + IssuesOf(description) + IssuesOf(outputPath)
                + IssuesOf(includeImage) + IssuesOf(folderStructure))
  }

  /** `GenerateSwimlaneImageSchema.parse(input)`. */
  function ParseImage(input: Option<Object>): (r: Result<ImageParams, seq<Issue>>)
    ensures input.None? ==> r == Failure(NoArguments)
    ensures r.Failure? ==> r.error != []
    ensures input.Some? ==> var args := input.value;
      && (r.Success? <==>
            && NonEmptyString(args, "text", TextRequired).Valid?
            && OptionalString(args, "title").Valid?
            && DefaultedBool(args, "highResolution", false).Valid?
            && OptionalString(args, "outputPath").Valid?)
      && (r.Success? ==> r.value.text != "")
    ensures input.Some? && r.Success? ==> var args := input.value;
      && r.value.text == args["text"].s
      && r.value.title == (if "title" in args then Some(args["title"].s) else None)
      && r.value.highResolution == (if "highResolution" in args then args["highResolution"].b else false)
      && r.value.outputPath == (if "outputPath" in args then Some(args["outputPath"].s) else None)
  {
    if input.None? then Failure(NoArguments)
    else
      var args := input.value;
      var text := NonEmptyString(args, "text", TextRequired);
      var title := OptionalString(args, "title");
      var highResolution := DefaultedBool(args, "highResolution", false);
      var outputPath := OptionalString(args, "outputPath");
      if text.Valid? && title.Valid? && highResolution.Valid? && outputPath.Valid? then
        Success(ImageParams(text.value, title.value, highResolution.value, outputPath.value))
      else
        Failure(IssuesOf(text) + IssuesOf(title) + IssuesOf(highResolution) + IssuesOf(outputPath))
  }

  /** `GetSwimlaneImageLinkSchema.parse(input)`. */
  function ParseLink(input: Option<Object>): (r: Result<LinkParams, seq<Issue>>)
    ensures input.None? ==> r == Failure(NoArguments)
    ensures r.Failure? ==> r.error != []
    ensures input.Some? ==> var args := input.value;
      && (r.Success? <==>
            && NonEmptyString(args, "text", TextRequired).Valid?
            && OptionalString(args, "title").Valid?
            && DefaultedBool(args, "highResolution", false).Valid?)
      && (r.Success? ==> r.value.text != "")
    ensures input.Some? && r.Success? ==> var args := input.value;
      && r.value.text == args["text"].s
      && r.value.title == (if "title" in args then Some(args["title"].s) else None)
      && r.value.highResolution == (if "highResolution" in args then args["highResolution"].b else false)
  {
    if input.None? then Failure(NoArguments)
    else
      var args := input.value;
      var text := NonEmptyString(args, "text", TextRequired);
      var title := OptionalString(args, "title");
      var highResolution := DefaultedBool(args, "highResolution", false);
      if text.Valid? && title.Valid? && highResolution.Valid? then
        Success(LinkParams(text.value, title.value, highResolution.value))
      else
        Failure(IssuesOf(text) + IssuesOf(title) + IssuesOf(highResolution))
  }

  // ---------------------------------------------------------------------
  // Argument records built from parameters: the inverse of parsing

  function WithOptional(args: Object, key: string, v: Option<string>): Object {
    if v.Some? then args[key := JString(v.value)] else args
  }

  function CreateArgs(p: CreateParams): Object {
    var base := map["text" := JString(p.text), "title" := JString(p.title),
                    "includeImage" := JBool(p.includeImage)];
    WithOptional(WithOptional(WithOptional(base, "description", p.description),
                              "outputPath", p.outputPath),
                 "folderStructure", p.folderStructure)
  }

  function ImageArgs(p: ImageParams): Object {
    var base := map["text" := JString(p.text), "highResolution" := JBool(p.highResolution)];
    WithOptional(WithOptional(base, "title", p.title), "outputPath", p.outputPath)
  }

  function LinkArgs(p: LinkParams): Object {
    var base := map["text" := JString(p.text), "highResolution" := JBool(p.highResolution)];
    WithOptional(base, "title", p.title)
  }

  // ---------------------------------------------------------------------
  // Properties

  /** Every documentation parameter record with a non-empty text and title is accepted back unchanged. */
  lemma CreateRoundTrip(p: CreateParams)
    requires p.text != "" && p.title != ""
    ensures ParseCreate(Some(CreateArgs(p))) == Success(p)
  {
    var args := CreateArgs(p);
    assert args["text"] == JString(p.text) && args["title"] == JString(p.title);
    assert args["includeImage"] == JBool(p.includeImage);
    assert OptionalString(args, "description").value == p.description;
    assert OptionalString(args, "outputPath").value == p.outputPath;
    assert OptionalString(args, "folderStructure").value == p.folderStructure;
  }

  /** Every image parameter record with a non-empty text is accepted back unchanged; the title may be empty. */
  lemma ImageRoundTrip(p: ImageParams)
    requires p.text != ""
    ensures ParseImage(Some(ImageArgs(p))) == Success(p)
  {
  }

  /** Every link parameter record with a non-empty text is accepted back unchanged; the title may be empty. */
  lemma LinkRoundTrip(p: LinkParams)
    requires p.text != ""
    ensures ParseLink(Some(LinkArgs(p))) == Success(p)
  {
  }

  /** An empty or missing text is rejected by all three schemas, with the messages zod gives. */
  lemma TextIsRequired(args: Object)
    requires "text" !in args || args["text"] == JString("")
    ensures ParseCreate(Some(args)).Failure? && ParseImage(Some(args)).Failure? && ParseLink(Some(args)).Failure?
    ensures var issue := Issue(["text"], if "text" in args then TextRequired else Required);
      && ParseCreate(Some(args)).error[0] == issue
      && ParseImage(Some(args)).error[0] == issue
      && ParseLink(Some(args)).error[0] == issue
  {
  }

  /** The documentation schema rejects an empty or missing title; any other title string is accepted. */
  lemma CreateTitleRequired(args: Object)
    requires "title" !in args || args["title"] == JString("")
    ensures ParseCreate(Some(args)).Failure?
    ensures Issue(["title"], if "title" in args then TitleRequired else Required) in ParseCreate(Some(args)).error
  {
    var issues := ParseCreate(Some(args)).error;
    var t := IssuesOf(NonEmptyString(args, "text", TextRequired));
    assert issues[|t|] == Issue(["title"], if "title" in args then TitleRequired else Required);
  }

  /** The smallest valid arguments: every optional field absent, every default applied. */
  lemma MinimalArguments(text: string, title: string)
    requires text != "" && title != ""
    ensures ParseCreate(Some(map["text" := JString(text), "title" := JString(title)])) ==
              Success(CreateParams(text, title, None, None, true, None))
    ensures ParseImage(Some(map["text" := JString(text)])) == Success(ImageParams(text, None, false, None))
    ensures ParseLink(Some(map["text" := JString(text)])) == Success(LinkParams(text, None, false))
  {
  }

  /** `includeImage` defaults to true and otherwise keeps the boolean given. */
  lemma IncludeImageDefault(args: Object)
    requires ParseCreate(Some(args)).Success?
    ensures ParseCreate(Some(args)).value.includeImage ==
              ("includeImage" !in args || args["includeImage"] == JBool(true))
  {
  }

  /** `highResolution` defaults to false for the image and the link schemas. */
  lemma HighResolutionDefault(args: Object)
    requires "highResolution" !in args
    ensures ParseImage(Some(args)).Success? ==> !ParseImage(Some(args)).value.highResolution
    ensures ParseLink(Some(args)).Success? ==> !ParseLink(Some(args)).value.highResolution
  {
  }

  /** An optional field holding anything but a string is rejected, naming that field. */
  lemma OptionalFieldMustBeString(args: Object, key: string)
    requires key in {"description", "outputPath", "folderStructure"}
    requires key in args && !args[key].JString?
    ensures ParseCreate(Some(args)).Failure?
    ensures WrongType(key, "string", args[key]) in ParseCreate(Some(args)).error
  {
    var bad := WrongType(key, "string", args[key]);
    assert IssuesOf(OptionalString(args, key)) == [bad];
    var issues := ParseCreate(Some(args)).error;
    assert issues == IssuesOf(NonEmptyString(args, "text", TextRequired))
                    + IssuesOf(NonEmptyString(args, "title", TitleRequired))
                    + IssuesOf(OptionalString(args, "description"))
                    + IssuesOf(OptionalString(args, "outputPath"))
                    + IssuesOf(DefaultedBool(args, "includeImage", true))
                    + IssuesOf(OptionalString(args, "folderStructure"));
  }

  /**
   * The link schema declares only `text`, `title` and `highResolution`: any
   * other key, `outputPath` included, has no effect on the parsed record.
   */
  lemma LinkIgnoresOtherKeys(args: Object, key: string, v: Json)
    requires key !in {"text", "title", "highResolution"}
    ensures ParseLink(Some(args[key := v])) == ParseLink(Some(args))
  {
    var args' := args[key := v];
    assert NonEmptyString(args', "text", TextRequired) == NonEmptyString(args, "text", TextRequired);
    assert OptionalString(args', "title") == OptionalString(args, "title");
    assert DefaultedBool(args', "highResolution", false) == DefaultedBool(args, "highResolution", false);
  }
}

=== FILE: strings.dfy ===
/**
 * The JavaScript string operations the tools rely on, over `seq<char>`:
 * `startsWith`, `split`/`join` on one separator character, ASCII
 * `toLowerCase`, truthiness of an optional string, and the decimal
 * rendering of a status number inside a template literal.
 */
module Strings {
  import opened Wrappers

  predicate StartsWith(s: string, prefix: string) {
    |prefix| <= |s| && s[..|prefix|] == prefix
  }

  predicate EndsWith(s: string, suffix: string) {
    |suffix| <= |s| && s[|s| - |suffix|..] == suffix
  }

  /** JavaScript truthiness of an optional string: defined and not "". */
  predicate Truthy(o: Option<string>) {
    o.Some? && o.value != ""
  }

  /** `a || b` for an optional string and a fallback string. */
  function OrElse(o: Option<string>, fallback: string): (r: string)
    ensures Truthy(o) ==> r == o.value
    ensures !Truthy(o) ==> r == fallback
  {
    if Truthy(o) then o.value else fallback
  }

  // ---------------------------------------------------------------------
  // Case folding

  function LowerChar(c: char): (d: char)
    ensures 'A' <= c <= 'Z' ==> 'a' <= d <= 'z'
    ensures !('A' <= c <= 'Z') ==> d == c
  {
    if 'A' <= c <= 'Z' then (c as int + 32) as char else c
  }

  /** `toLowerCase` restricted to ASCII letters; every other character is kept. */
  function Lower(s: string): string {
    seq(|s|, i requires 0 <= i < |s| => LowerChar(s[i]))
  }

  // ---------------------------------------------------------------------
  // split / join on a single separator character

  /**
   * `s.split(sep)`: the pieces between separators, in order. There is always
   * at least one piece, and the empty string splits into one empty piece.
   */
  function Split(s: string, sep: char): (parts: seq<string>)
    ensures |parts| >= 1
    ensures forall i :: 0 <= i < |parts| ==> sep !in parts[i]
  {
    if s == [] then [[]]
    else
      var rest := Split(s[1..], sep);
      if s[0] == sep then [[]] + rest
      else [[s[0]] + rest[0]] + rest[1..]
  }

  /** `parts.join(sep)`. */
  function Join(parts: seq<string>, sep: char): string {
    if |parts| == 0 then []
    else if |parts| == 1 then parts[0]
    else parts[0] + [sep] + Join(parts[1..], sep)
  }

  lemma JoinThree(a: string, b: string, c: string, sep: char)
    ensures Join([a, b, c], sep) == a + [sep] + b + [sep] + c
  {
    assert [a, b, c][1..] == [b, c];
    assert [b, c][1..] == [c];
    assert Join([b, c], sep) == b + [sep] + c;
  }

  lemma JoinFour(a: string, b: string, c: string, d: string, sep: char)
    ensures Join([a, b, c, d], sep) == a + [sep] + b + [sep] + c + [sep] + d
  {
    assert [a, b, c, d][1..] == [b, c, d];
    JoinThree(b, c, d, sep);
  }

  /** Joining the pieces of a split gives back the string that was split. */
  lemma {:induction false} JoinSplit(s: string, sep: char)
    ensures Join(Split(s, sep), sep) == s
  {
    if s != [] {
      var rest := Split(s[1..], sep);
      JoinSplit(s[1..], sep);
      if s[0] == sep {
        assert Split(s, sep) == [[]] + rest;
        assert Join([[]] + rest, sep) == [sep] + Join(rest, sep);
      } else {
        var parts := Split(s, sep);
        assert parts == [[s[0]] + rest[0]] + rest[1..];
        if |rest| == 1 {
          assert Join(rest, sep) == rest[0];
        } else {
          assert Join(rest, sep) == rest[0] + [sep] + Join(rest[1..], sep);
          assert parts[1..] == rest[1..];
        }
      }
    }
  }

  /** Splitting a joined list of separator-free pieces gives back the pieces. */
  lemma {:induction false} SplitJoin(parts: seq<string>, sep: char)
    requires |parts| >= 1
    requires forall i :: 0 <= i < |parts| ==> sep !in parts[i]
    ensures Split(Join(parts, sep), sep) == parts
  {
    if |parts| == 1 {
      SplitPlain(parts[0], sep);
    } else {
      SplitJoin(parts[1..], sep);
      SplitAfterPlain(parts[0], Join(parts[1..], sep), sep);
      assert [parts[0]] + parts[1..] == parts;
    }
  }

  /** A string without the separator splits into itself. */
  lemma {:induction false} SplitPlain(s: string, sep: char)
    requires sep !in s
    ensures Split(s, sep) == [s]
  {
    if s != [] {
      SplitPlain(s[1..], sep);
      assert [s[0]] + s[1..] == s;
    }
  }

  /** A separator-free head before the first separator becomes the first piece. */
  lemma {:induction false} SplitAfterPlain(head: string, tail: string, sep: char)
    requires sep !in head
    ensures Split(head + [sep] + tail, sep) == [head] + Split(tail, sep)
  {
    if head == [] {
      assert [] + [sep] + tail == [sep] + tail;
      assert ([sep] + tail)[1..] == tail;
    } else {
      var s := head + [sep] + tail;
      assert s[1..] == head[1..] + [sep] + tail;
      SplitAfterPlain(head[1..], tail, sep);
      assert [head[0]] + head[1..] == head;
    }
  }

  /** Dropping `k` elements after a head drops `k - 1` of the rest. */
  lemma DropAfterHead<T>(head: T, rest: seq<T>, k: nat)
    requires 1 <= k <= |rest| + 1
    ensures ([head] + rest)[k..] == rest[k - 1..]
  {
  }

  /** The join of the last pieces of a split is a suffix of the split string. */
  lemma {:induction false} JoinOfSplitSuffix(s: string, sep: char, k: nat)
    requires k <= |Split(s, sep)|
    ensures EndsWith(s, Join(Split(s, sep)[k..], sep))
  {
    if k == 0 {
      JoinSplit(s, sep);
      assert Split(s, sep)[k..] == Split(s, sep);
    } else if s != [] {
      var rest := Split(s[1..], sep);
      if s[0] == sep {
        assert Split(s, sep) == [[]] + rest;
        DropAfterHead([], rest, k);
        JoinOfSplitSuffix(s[1..], sep, k - 1);
      } else if k == 1 {
        assert Split(s, sep)[1..] == rest[1..];
        JoinOfSplitSuffix(s[1..], sep, 1);
      } else {
        assert Split(s, sep) == [[s[0]] + rest[0]] + rest[1..];
        DropAfterHead([s[0]] + rest[0], rest[1..], k);
        assert rest[1..][k - 1..] == rest[k..];
        JoinOfSplitSuffix(s[1..], sep, k);
      }
    }
  }

  // ---------------------------------------------------------------------
  // Decimal numbers, as `${n}` renders a non-negative integer

  predicate IsDigit(c: char) {
    '0' <= c <= '9'
  }

  function DigitChar(d: nat): (c: char)
    requires d < 10
    ensures IsDigit(c)
  {
    ('0' as int + d) as char
  }

  /** The decimal numeral of `n`, without leading zeros. */
  function NatToString(n: nat): (r: string)
    ensures |r| >= 1
    ensures forall i :: 0 <= i < |r| ==> IsDigit(r[i])
    ensures n > 0 ==> r[0] != '0'
  {
    if n < 10 then [DigitChar(n)]
    else NatToString(n / 10) + [DigitChar(n % 10)]
  }

  /** The value of a string of decimal digits. */
  function ParseNat(s: string): nat
    requires forall i :: 0 <= i < |s| ==> IsDigit(s[i])
  {
    if s == [] then 0
    else ParseNat(s[..|s| - 1]) * 10 + DigitValue(s[|s| - 1])
  }

  function DigitValue(c: char): (d: nat)
    requires IsDigit(c)
    ensures d < 10
  {
    c as int - '0' as int
  }

  /** Reading the numeral of `n` back gives `n`. */
  lemma {:induction false} ParseNatToString(n: nat)
    ensures ParseNat(NatToString(n)) == n
  {
    var r := NatToString(n);
    if n >= 10 {
      ParseNatToString(n / 10);
      assert r[..|r| - 1] == NatToString(n / 10);
    }
  }

  /** The longest prefix of `s` made of digits. */
  function LeadingDigits(s: string): (r: string)
    ensures StartsWith(s, r)
    ensures forall i :: 0 <= i < |r| ==> IsDigit(r[i])
    ensures |r| < |s| ==> !IsDigit(s[|r|])
  {
    if s == [] || !IsDigit(s[0]) then [] else [s[0]] + LeadingDigits(s[1..])
  }

  /** The digits before a non-digit are exactly the leading digits. */
  lemma {:induction false} LeadingDigitsOf(digits: string, rest: string)
    requires forall i :: 0 <= i < |digits| ==> IsDigit(digits[i])
    requires rest == [] || !IsDigit(rest[0])
    ensures LeadingDigits(digits + rest) == digits
  {
    if digits != [] {
      assert (digits + rest)[1..] == digits[1..] + rest;
      LeadingDigitsOf(digits[1..], rest);
    } else {
      assert digits + rest == rest;
    }
  }
}

=== FILE: wrappers.dfy ===
/** Option and Result, used for absent JavaScript values and for thrown errors. */
module Wrappers {

  /** An optional value: `None` stands for JavaScript's `undefined`. */
  datatype Option<+T> = None | Some(value: T)

  /** The outcome of a step that may throw: `Failure` carries what was thrown. */
  datatype Result<+T, +E> = Success(value: T) | Failure(error: E)
}
